=== FILE: README.md ===
# Local_RAG transcript assistant: a Dafny model of its core

Local_RAG reads a classroom transcript and asks a local language model for a structured German summary. It then answers questions about the transcript with retrieval-augmented generation. This project models the logic that does not depend on the model:

- **Transcript parser** (`FileParser`). `TranscriptParser.parse` is a fold over the file's lines with a two-state machine: waiting for the first speaker label, or accumulating the current speaker's text lines.
  - Modelled: the strip-and-skip rule, labels, the two `ValueError`s, the rule that flushes a pending statement, and the two derived views.
  - Proved: blank lines are irrelevant; a characterisation of when the text-before-label error occurs; every emitted statement has a non-empty speaker and a non-empty, stripped text; the file layout round trip.
- **Session persistence** (`Sessions`, with `DateTimes` for the clock formats).
  - A session becomes a JSON-like record in a file system map from paths to documents.
  - The file name comes from the start time via `strftime("%Y%m%d_%H%M%S")`, so it identifies the start time to the second.
  - The record has exactly four keys. The start time is written in ISO 8601 extended format (ISO 8601:2004 section 4.3.2) and read back with `fromisoformat`.
  - Proved: save/load round trip, that a saved file is listed, and same-second overwriting.
- **Summary rendering** (`Summaries`). The language model chain is a function parameter returning a `SummaryOutput`.
  - Modelled: the empty-transcript check, which happens outside the `try`; wrapping of failures; the fixed text layout.
  - Proved: as long as no field holds a newline, a decoder recovers all four fields from the rendered text.
- **Question answering** (`Queries`). Retrieval and generation are function parameters. `query` is a pure transition on an append-only history: the gate returns the fixed refusal without consulting the model when no chunk came back or the context has fewer than 10 characters after `strip()`, so whitespace does not count toward the minimum. A model answer is recorded raw but returned stripped. `start_interactive` is a loop that skips blank input, stops at the first error, and saves the session when interrupted.

`Text` holds the string operations the source relies on, `str.strip` and `sep.join`, and `Split`, which splits a string at a separator character and serves in the proofs as the inverse of the join. `Results` holds `Option` and `Result`. `Scenarios` states the repository's own parser test cases as lemmas about the model.

## Model

| member | source | states |
|---|---|---|
| Text.Strip | src/file_parser.py:92 | the stripped line has no whitespace at either end, is no longer than the line, and is empty exactly when the line is all whitespace |
| Text.StripPadded | src/file_parser.py:92 | whatever whitespace surrounds a stripped core, stripping returns exactly that core |
| Text.StripIdempotent | src/query_engine.py:154 | stripping an already stripped string changes nothing |
| Text.SplitJoin | src/file_parser.py:43 | splitting the newline join of a non-empty list of newline-free pieces gives the pieces back |
| Text.JoinSplit | src/file_parser.py:43 | joining the pieces of a split with the separator rebuilds the string |
| Text.JoinShape | src/file_parser.py:43 | `sep.join` of no pieces is empty; otherwise its length is the pieces' total length plus one separator per pair of neighbours, and it starts with the first piece |
| Text.JoinAppend | src/file_parser.py:43 | joining a concatenation is joining the halves with one separator between them |
| FileParser.StudentQuestions | src/file_parser.py:46-59 | `get_student_questions` keeps a statement exactly when it is in the transcript, its speaker is not `TEACHER` and its text contains `?`; it returns no more statements than the transcript has |
| FileParser.QuestionsIn | src/file_parser.py:56-59 | a statement is a student question exactly when it is in the transcript, its speaker is not `TEACHER` and its text contains `?` |
| FileParser.QuestionsInAppend | src/file_parser.py:56-59 | the question filter distributes over concatenation, so it keeps the transcript's order |
| FileParser.FullText | src/file_parser.py:43 | the full text is empty exactly when the transcript has no statements |
| FileParser.FullTextAppend | src/file_parser.py:43 | the full text of two non-empty runs of statements is their full texts on consecutive lines |
| FileParser.FullTextLines | src/file_parser.py:43 | for a non-empty transcript in which no speaker or text holds a newline, splitting the full text at newlines gives one `speaker: text` line per statement, in order |
| FileParser.Step | src/file_parser.py:91-110 | a blank line leaves the state alone; a label flushes the pending statement and starts the new speaker with no text; text before any label fails; other text is appended stripped |
| FileParser.Parse | src/file_parser.py:112-122 | a successful parse holds at least one statement, and an empty file is rejected with the no-statements error |
| FileParser.ParseLines | src/file_parser.py:86-122 | the loop with `current_speaker`, `current_text` and `statements` computes the same result as the fold |
| FileParser.RunAppend | src/file_parser.py:91-110 | running over two pieces of input is running over the first and then, unless it failed, over the second |
| FileParser.BlankLinesIgnored | src/file_parser.py:92-94 | deleting every blank line from the input changes neither the transcript nor the error |
| FileParser.TextBeforeSpeakerIff | src/file_parser.py:107-109 | parsing fails with the text-before-label error exactly when the first non-blank line is not a label |
| FileParser.RunWithSpeakerSucceeds | src/file_parser.py:97-110 | once a label has been seen no later line can make the loop fail |
| FileParser.ParsedStatementsCanonical | src/file_parser.py:99-106 | every parsed statement has a non-empty speaker and a non-empty, stripped text that does not end in a colon |
| FileParser.ParseLayout | src/file_parser.py:97-117 | a file of label lines each followed by text lines parses to one statement per label, in order, with its lines joined by single spaces |
| FileParser.ParseEncode | src/file_parser.py:97-122 | writing a transcript of canonical statements as label and text lines and parsing it gives the transcript back |
| FileParser.ParseIsNormalForm | src/file_parser.py:71-122 | writing out any parse result and parsing it again gives the same result |
| DateTimes.Digits | src/utils/session.py:64 | a zero-padded field has exactly the requested width and only digits |
| DateTimes.IsoFormat | src/utils/session.py:69 | `isoformat` output is 19 characters long, or 26 when there are microseconds |
| DateTimes.IsoRoundTrip | src/utils/session.py:69 | parsing the ISO 8601 text of a date-time gives the same date-time |
| DateTimes.ParseIso | src/utils/session.py:106 | only text of 19 or 26 characters is accepted as a start time |
| DateTimes.FormatOfParseIso | src/utils/session.py:106 | any text the parser accepts in those two shapes is the ISO text of what it parsed, except a fraction of `.000000`, which `isoformat` does not write back |
| DateTimes.Stamp | src/utils/session.py:64 | the `%Y%m%d_%H%M%S` stamp is 15 characters long |
| DateTimes.StampRoundTrip | src/utils/session.py:64 | the stamp can be read back to the start time without its microseconds |
| DateTimes.StampIdentifiesSecond | src/utils/session.py:64 | two date-times have the same stamp exactly when they agree to the second |
| Sessions.SessionsDir | src/utils/session.py:48 | the sessions directory is the output directory with one more component, `sessions` |
| Sessions.FileName | src/utils/session.py:65 | the file name is `session_`, then the 15-character stamp of the start time, then `.json` |
| Sessions.SessionNamesIff | src/utils/session.py:84 | the listing pattern matches a name exactly when it starts with `session_` and ends with `.json`, so no other file is listed |
| Sessions.PatternMatchesSessionNames | src/utils/session.py:84 | every name of the form `session_<anything>.json` matches the listing pattern |
| Sessions.SessionFileIdentifiesSecond | src/utils/session.py:64-65 | two sessions get the same file exactly when they started in the same second |
| Sessions.EncodeSession | src/utils/session.py:67-72 | the record has exactly the keys `transcript`, `start_time`, `questions` and `summary`: the path as a string, the time in ISO form, one entry per exchange |
| Sessions.DecodeSession | src/utils/session.py:104-109 | loading fails when the document is not an object or when any of the four keys is missing, and a missing `transcript` is the first error reported |
| Sessions.DecodeEncodeSession | src/utils/session.py:67-72 | decoding the record of a session gives the session back |
| Sessions.SaveSession | src/utils/session.py:64-75 | saving writes the encoded record to the session's file and leaves every other file as it was |
| Sessions.LoadSession | src/utils/session.py:101-102 | loading a path with no file fails |
| Sessions.ListSessions | src/utils/session.py:84 | a path is listed exactly when it is a file directly in the sessions directory whose name matches `session_*.json` |
| Sessions.SaveThenLoad | src/utils/session.py:67-109 | loading the file a session was saved to gives the same transcript path, start time, questions and summary |
| Sessions.SaveThenList | src/utils/session.py:64-84 | after a save the listing is the old listing plus the saved file |
| Sessions.SameSecondOverwrites | src/utils/session.py:64-75 | of two sessions saved under a start time in the same second, the file holds the later |
| Sessions.DifferentSecondsKeepBoth | src/utils/session.py:64-75 | a save with a start time in another second leaves an earlier session's file intact |
| Summaries.Render | src/summarizer.py:99-115 | the rendered text is the German layout's lines (title, rule, synopsis, blank line, each header with its bullets) joined by newlines |
| Summaries.BulletLines | src/summarizer.py:104-113 | each list element becomes one line `- element`, in input order |
| Summaries.RenderIsJoinedLines | src/summarizer.py:99-115 | the rendered text is title, rule, synopsis, blank line, then each header followed by its bullets, sections separated by a blank line, joined by newlines |
| Summaries.RenderedLines | src/summarizer.py:99-115 | when no field holds a newline, the rendered text's lines are exactly that sequence: headers in their fixed order and bullets in input order |
| Summaries.GermanIsGood | src/summarizer.py:99-111 | the German headers and the rule of fifty `=` are single lines and the two later section headers (questions and conclusions) do not start with `- ` |
| Summaries.TakeBulletLines | src/summarizer.py:104-113 | the bullets of a list can be read back from its lines up to the next non-bullet line |
| Summaries.DecodeRender | src/summarizer.py:99-115 | the synopsis and all three lists can be recovered from the rendered text as long as no field holds a newline |
| Summaries.Summarize | src/summarizer.py:73-118 | an empty transcript is rejected with the unwrapped empty-transcript error and nothing else is; a model failure becomes the wrapped error; success is the rendering of the model's output for the transcript's full text |
| Queries.NewEngine | src/query_engine.py:22-30 | a new engine has an empty history and the start time read from the clock |
| Queries.Corpus | src/query_engine.py:110 | the corpus is the transcript's full text, then a blank line, then the summary |
| Queries.Context | src/query_engine.py:135 | the context is the chunks joined by newlines: when no chunk holds a newline, splitting it gives the chunks back |
| Queries.Grounded | src/query_engine.py:132-138 | a grounded context comes from at least one chunk and is at least 10 characters long; an all-whitespace context is never grounded |
| Queries.Query | src/query_engine.py:119-157 | errors pass through with the history unchanged; no chunks or under 10 stripped characters of context give the refusal with the history unchanged; otherwise exactly one entry is appended with the question, raw answer and ISO time, and the stripped answer is returned |
| Queries.UngroundedIgnoresModel | src/query_engine.py:132-139 | when retrieval finds no chunk or under 10 stripped characters of context, the reply does not depend on the model at all |
| Queries.AnswerIsStripped | src/query_engine.py:154 | a generated answer returned to the caller is already stripped |
| Queries.Converse | src/query_engine.py:164-172 | the conversation only appends to the history; the appended questions are non-blank typed lines in the order typed; without an error there is one answer per non-blank input |
| Queries.ConverseOne | src/query_engine.py:166-171 | a single blank line does nothing; a single typed line is put to `query` and its answer printed, or its error ends the loop |
| Queries.ConverseAppend | src/query_engine.py:164-172 | the loop over two runs of input is the loop over the first and, unless that ended in an error, the loop over the second from the engine the first left, answers in order |
| Queries.Typed | src/query_engine.py:166-168 | the inputs kept are a subsequence of the inputs, each with its own clock, none of them blank, and their lines are exactly the non-blank lines typed, so every non-blank input is kept in order |
| Queries.TypedOne | src/query_engine.py:166-168 | a single input is kept exactly when its line is not blank |
| Queries.TypedAppend | src/query_engine.py:166-168 | keeping the non-blank inputs of two runs is keeping those of each run, in order |
| Queries.BlankInputsIgnored | src/query_engine.py:166-168 | deleting the blank inputs changes neither the answers, the history nor the outcome |
| Queries.StartInteractive | src/query_engine.py:159-183 | the loop computes the conversation; on interrupt it saves the session with the transcript path, the engine's start time, the whole history and the summary; after an error it saves nothing |
| Queries.InterruptedSessionLoads | src/query_engine.py:173-182 | the session saved on interrupt loads back with the whole conversation |
| Scenarios.ClassroomParses | tests/test_parser.py:5-30 | the four-turn sample transcript parses to its four statements, in order |
| Scenarios.ClassroomQuestions | tests/test_parser.py:32-35 | of those, the one student line with a question mark is the only student question |
| Scenarios.TextBeforeLabelRejected | tests/test_parser.py:37-46 | a text line before the first label is rejected with the text-before-label error |
| Scenarios.EmptyTurnDropped | src/file_parser.py:99-106 | a label followed directly by another label emits nothing for the first speaker |
| Scenarios.EmptySpeakerDropped | src/file_parser.py:105-122 | a bare `:` label names the empty speaker, whose text is dropped, so the parse finds no statements |

## Left out

- File reading: UTF-8 decoding, `FileNotFoundError` and the trailing newline of each line. The parser takes the file's lines as strings; `strip` removes the newline anyway.
- Unicode whitespace: `Text.IsSpace` is the ASCII subset of what Python's `str.isspace` accepts.
- JSON text: the bytes `json.dump` writes and `json.load` reads. A session file is a `Json` value in a map from paths to documents.
- JSON numbers, booleans and `null`: the `Json` type has only strings, arrays and objects, which is all a saved session holds. `load_session` would also accept, say, `"summary": null` in a hand-edited file; the model has no such document.
- Exception messages: the texts of the parser's two `ValueError`s and of the summarizer's errors (the empty-transcript message and the `Fehler bei der Zusammenfassung: ` prefix). The model keeps each error's kind and, for a wrapped model failure, its cause.
- Sessions.DecodeSession: is stricter than `load_session`. Python keeps any JSON value under `questions` and `summary`; the model rejects values that are not a list of question/answer/timestamp objects and a string respectively.
- Path normalisation: `Path(data["transcript"])` and `str(path)` are modelled as the identity on a string.
- Directory creation (`mkdir` in the `SessionManager` constructor).
- Listing order: `glob` order depends on the file system, so the listing is a set.
- DateTimes.Stamp: writes the year zero-padded to four digits; glibc's `%Y` writes years below 1000 unpadded.
- DateTimes.ParseIso: accepts only the two shapes `isoformat` produces for a naive date-time. The other shapes `fromisoformat` accepts (dates alone, fewer fraction digits, time zones) are left out; so are time zones in general.
- The Ollama connection probe and model pull, the embedding model, the FAISS index, and text splitting (chunk size 1000 and overlap 200 are fixed in src/query_engine.py:104-107). All are calls into other libraries or services. Retrieval is a function parameter over the corpus, and the corpus is modelled.
- Prompt templates, and the output-fixing parser of the summary chain. Generation and the summary chain are function parameters.
- Logging, the progress spinner, `rich` printing and the unused `ConversationStorage`.
- Configuration loading.
- The CLI in summarize_interactions.py, including session continuation. The demo script is also left out.
- The interactive loop ends only by interrupt at the prompt. End of input (`EOFError`) is not modelled; nor is an interrupt inside `query`, which the loop's handler would also catch.
- tests/test_query_engine.py: its constructor calls pass two arguments where three are required, and its checks depend on the model's output.

=== FILE: file_parser.dfy ===
/** Transcripts: speaker-labelled statements, the two views derived from
    them, and the line-by-line parser that builds them.

    The parser is a fold over the transcript's lines with a two-state
    machine: it is either waiting for the first speaker label or
    accumulating text lines for the current speaker. */
module FileParser {
  import opened Results
  import opened Text

  datatype Statement = Statement(speaker: string, text: string)

  datatype Transcript = Transcript(statements: seq<Statement>)

  /** The speaker label whose statements are never student questions. */
  const Teacher: string := "TEACHER"

  // ---------------------------------------------------------------------
  // Derived views
  // ---------------------------------------------------------------------

  /** One statement as it appears in the full text: `speaker: text`. */
  function StatementLine(s: Statement): string {
    s.speaker + ": " + s.text
  }

  function StatementLines(ss: seq<Statement>): seq<string> {
    seq(|ss|, i requires 0 <= i < |ss| => StatementLine(ss[i]))
  }

  /** `Transcript.get_full_text`: one `speaker: text` line per statement,
      joined by newlines. */
  function FullText(t: Transcript): (r: string)
    ensures |r| == 0 <==> |t.statements| == 0
  {
    var lines := StatementLines(t.statements);
    JoinShape(lines, "\n");
    assert |lines| > 0 ==> |lines[0]| >= 2 && TotalLength(lines) >= |lines[0]|;
    Join(lines, "\n")
  }

  predicate IsStudentQuestion(s: Statement) {
    s.speaker != Teacher && '?' in s.text
  }

  /** The statements of `ss` that are student questions, in order. */
  function QuestionsIn(ss: seq<Statement>): (r: seq<Statement>)
    ensures |r| <= |ss|
    ensures forall s :: s in r <==> s in ss && IsStudentQuestion(s)
  {
    if |ss| == 0 then []
    else (if IsStudentQuestion(ss[0]) then [ss[0]] else []) + QuestionsIn(ss[1..])
  }

  /** `Transcript.get_student_questions`. */
  function StudentQuestions(t: Transcript): (r: seq<Statement>)
    ensures |r| <= |t.statements|
    ensures forall s :: s in r <==> s in t.statements && IsStudentQuestion(s)
  {
    QuestionsIn(t.statements)
  }

  /** The question filter distributes over concatenation: it keeps the
      order of the statements it selects. */
  lemma {:induction false} QuestionsInAppend(a: seq<Statement>, b: seq<Statement>)
    ensures QuestionsIn(a + b) == QuestionsIn(a) + QuestionsIn(b)
  {
    if |a| > 0 {
      assert (a + b)[1..] == a[1..] + b;
      QuestionsInAppend(a[1..], b);
    } else {
      assert a + b == b;
    }
  }

  /** The full text of a concatenation is the two full texts on separate lines. */
  lemma FullTextAppend(a: seq<Statement>, b: seq<Statement>)
    requires |a| > 0 && |b| > 0
    ensures FullText(Transcript(a + b)) == FullText(Transcript(a)) + "\n" + FullText(Transcript(b))
  {
    assert StatementLines(a + b) == StatementLines(a) + StatementLines(b);
    JoinAppend(StatementLines(a), StatementLines(b), "\n");
  }

  /** Splitting the full text at newlines gives back one `speaker: text` line
      per statement, in order, as long as no statement holds a newline. */
  lemma FullTextLines(t: Transcript)
    requires |t.statements| > 0
    requires forall i :: 0 <= i < |t.statements| ==>
               '\n' !in t.statements[i].speaker && '\n' !in t.statements[i].text
    ensures Split(FullText(t), '\n') == StatementLines(t.statements)
  {
    var ls := StatementLines(t.statements);
    forall i | 0 <= i < |ls|
      ensures '\n' !in ls[i]
    {
      var s := t.statements[i];
      assert ls[i] == s.speaker + (": " + s.text);
    }
    SplitJoin(ls, '\n');
  }

  // ---------------------------------------------------------------------
  // Parsing
  // ---------------------------------------------------------------------

  /** Where the parser stands between two lines. Python's
      `current_speaker is None` is `AwaitingSpeaker`; otherwise the
      current speaker (possibly empty, after a bare `:` label) and the text
      lines seen since its label. */
  datatype Mode = AwaitingSpeaker | Accumulating(speaker: string, lines: seq<string>)

  datatype ParserState = ParserState(emitted: seq<Statement>, mode: Mode)

  /** The two `ValueError`s `parse` raises: a text line before any label,
      and a file with no statement at all. */
  datatype ParseError = TextBeforeSpeaker | NoStatements


  const Start: ParserState := ParserState([], AwaitingSpeaker)

  /** A line that is empty once stripped. */
  predicate IsBlank(line: string) {
    AllSpace(line)
  }

  /** A line that, once stripped, ends with a colon. */
  predicate IsLabel(line: string) {
    var l := Strip(line);
    |l| > 0 && l[|l| - 1] == ':'
  }

  predicate IsText(line: string) {
    !IsBlank(line) && !IsLabel(line)
  }

  /** The statement a mode would emit if flushed now: only when the speaker
      is non-empty and at least one text line has accumulated. */
  function Pending(m: Mode): seq<Statement> {
    if m.Accumulating? && m.speaker != "" && |m.lines| > 0
    then [Statement(m.speaker, Join(m.lines, " "))]
    else []
  }

  /** One iteration of the parser's loop body. */
  function Step(st: ParserState, line: string): (r: Result<ParserState, ParseError>)
    ensures IsBlank(line) ==> r == Ok(st)
    ensures IsLabel(line) ==>
              r == Ok(ParserState(st.emitted + Pending(st.mode),
                                  Accumulating(Strip(line)[..|Strip(line)| - 1], [])))
    ensures IsText(line) && st.mode.AwaitingSpeaker? ==> r == Err(TextBeforeSpeaker)
    ensures IsText(line) && st.mode.Accumulating? ==>
              r == Ok(ParserState(st.emitted,
                                  Accumulating(st.mode.speaker, st.mode.lines + [Strip(line)])))
  {
    var l := Strip(line);
    if |l| == 0 then Ok(st)
    else if l[|l| - 1] == ':' then
      Ok(ParserState(st.emitted + Pending(st.mode), Accumulating(l[..|l| - 1], [])))
    else
      match st.mode
      case AwaitingSpeaker => Err(TextBeforeSpeaker)
      case Accumulating(sp, ls) => Ok(ParserState(st.emitted, Accumulating(sp, ls + [l])))
  }

  /** The loop over all lines; the first error stops it. */
  function Run(st: ParserState, lines: seq<string>): Result<ParserState, ParseError>
    decreases |lines|
  {
    if |lines| == 0 then Ok(st)
    else
      match Step(st, lines[0])
      case Err(e) => Err(e)
      case Ok(after) => Run(after, lines[1..])
  }

  /** `TranscriptParser.parse` on the lines of the file: run the loop, flush
      the last pending statement, and fail if nothing was emitted. */
  function Parse(lines: seq<string>): (r: Result<Transcript, ParseError>)
    ensures r.Ok? ==> |r.value.statements| >= 1
    ensures |lines| == 0 ==> r == Err(NoStatements)
  {
    match Run(Start, lines)
    case Err(e) => Err(e)
    case Ok(st) =>
      var all := st.emitted + Pending(st.mode);
      if |all| == 0 then Err(NoStatements) else Ok(Transcript(all))
  }

  /** The same parse as Python's loop writes it: a `current_speaker` that is
      `None` or a string, a list of text lines, and a list of statements. */
  method ParseLines(lines: seq<string>) returns (r: Result<Transcript, ParseError>)
    ensures r == Parse(lines)
  {
    var statements: seq<Statement> := [];
    var speaker: Option<string> := None;
    var text: seq<string> := [];
    var i := 0;
    while i < |lines|
      invariant 0 <= i <= |lines|
      invariant speaker.None? ==> text == []
      invariant Run(Start, lines) == Run(ParserState(statements, ModeOf(speaker, text)), lines[i..])
    {
      ghost var st := ParserState(statements, ModeOf(speaker, text));
      assert lines[i..][0] == lines[i] && lines[i..][1..] == lines[i + 1..];
      var line := Strip(lines[i]);
      if |line| == 0 {
        i := i + 1;
        continue;
      }
      assert !IsBlank(lines[i]);
      if line[|line| - 1] == ':' {
        assert IsLabel(lines[i]);
        statements := statements + PendingOf(speaker, text);
        speaker := Some(line[..|line| - 1]);
        text := [];
      } else {
        assert IsText(lines[i]);
        if speaker.None? {
          return Err(TextBeforeSpeaker);
        }
        text := text + [line];
      }
      assert Step(st, lines[i]) == Ok(ParserState(statements, ModeOf(speaker, text)));
      i := i + 1;
    }
    assert lines[i..] == [];
    statements := statements + PendingOf(speaker, text);
    if |statements| == 0 {
      return Err(NoStatements);
    }
    return Ok(Transcript(statements));
  }

  /** What `if current_speaker and current_text` appends. */
  function PendingOf(speaker: Option<string>, text: seq<string>): seq<Statement> {
    Pending(ModeOf(speaker, text))
  }

  function ModeOf(speaker: Option<string>, text: seq<string>): Mode {
    match speaker
    case None => AwaitingSpeaker
    case Some(sp) => Accumulating(sp, text)
  }

  // ---------------------------------------------------------------------
  // Properties of the parser
  // ---------------------------------------------------------------------

  /** Running over two pieces of input is running over the first and then,
      if that succeeded, over the second. */
  lemma {:induction false} RunAppend(st: ParserState, a: seq<string>, b: seq<string>)
    ensures Run(st, a + b) == (match Run(st, a)
                               case Err(e) => Err(e)
                               case Ok(mid) => Run(mid, b))
    decreases |a|
  {
    if |a| == 0 {
      assert a + b == b;
    } else {
      assert (a + b)[0] == a[0];
      assert (a + b)[1..] == a[1..] + b;
      match Step(st, a[0])
      case Err(e) =>
      case Ok(after) => RunAppend(after, a[1..], b);
    }
  }

  /** The lines that are not blank, in order. */
  function NonBlank(lines: seq<string>): seq<string> {
    if |lines| == 0 then []
    else (if IsBlank(lines[0]) then [] else [lines[0]]) + NonBlank(lines[1..])
  }

  lemma RunBlankHead(st: ParserState, lines: seq<string>)
    requires |lines| > 0 && IsBlank(lines[0])
    ensures Run(st, lines) == Run(st, lines[1..])
  {
    assert Step(st, lines[0]) == Ok(st);
  }

  lemma RunConsHead(st: ParserState, l: string, rest: seq<string>)
    ensures Step(st, l).Err? ==> Run(st, [l] + rest) == Err(Step(st, l).error)
    ensures Step(st, l).Ok? ==> Run(st, [l] + rest) == Run(Step(st, l).value, rest)
  {
    assert ([l] + rest)[0] == l;
    assert ([l] + rest)[1..] == rest;
  }

  lemma NonBlankSkips(lines: seq<string>)
    requires |lines| > 0 && IsBlank(lines[0])
    ensures NonBlank(lines) == NonBlank(lines[1..])
  {
    assert NonBlank(lines) == [] + NonBlank(lines[1..]);
  }

  lemma {:induction false} RunIgnoresBlank(st: ParserState, lines: seq<string>)
    ensures Run(st, lines) == Run(st, NonBlank(lines))
    decreases |lines|
  {
    if |lines| > 0 {
      var rest := NonBlank(lines[1..]);
      if IsBlank(lines[0]) {
        NonBlankSkips(lines);
        RunBlankHead(st, lines);
        RunIgnoresBlank(st, lines[1..]);
      } else {
        assert NonBlank(lines) == [lines[0]] + rest;
        RunConsHead(st, lines[0], rest);
        if Step(st, lines[0]).Ok? {
          RunIgnoresBlank(Step(st, lines[0]).value, lines[1..]);
        }
      }
    }
  }

  /** Blank lines (empty after stripping) change nothing: removing them all
      gives the same result, success or failure. */
  lemma BlankLinesIgnored(lines: seq<string>)
    ensures Parse(lines) == Parse(NonBlank(lines))
  {
    RunIgnoresBlank(Start, lines);
  }

  /** The first line that is not blank is a text line, not a label. */
  predicate TextComesFirst(lines: seq<string>) {
    exists i :: 0 <= i < |lines| && IsText(lines[i]) && forall j :: 0 <= j < i ==> IsBlank(lines[j])
  }

  /** Once a label has been seen the loop cannot fail. */
  lemma {:induction false} RunWithSpeakerSucceeds(st: ParserState, lines: seq<string>)
    requires st.mode.Accumulating?
    ensures Run(st, lines).Ok?
    decreases |lines|
  {
    if |lines| > 0 {
      RunWithSpeakerSucceeds(Step(st, lines[0]).value, lines[1..]);
    }
  }

  /** A blank first line does not decide whether text comes first. */
  lemma TextComesFirstBlankHead(lines: seq<string>)
    requires |lines| > 0 && IsBlank(lines[0])
    ensures TextComesFirst(lines) <==> TextComesFirst(lines[1..])
  {
    var rest := lines[1..];
    if TextComesFirst(rest) {
      var i :| 0 <= i < |rest| && IsText(rest[i]) && forall j :: 0 <= j < i ==> IsBlank(rest[j]);
      assert IsText(lines[i + 1]);
      assert forall j :: 0 <= j < i + 1 ==> IsBlank(lines[j]) by {
        forall j | 0 <= j < i + 1
          ensures IsBlank(lines[j])
        {
          if j > 0 { assert lines[j] == rest[j - 1]; }
        }
      }
    }
    if TextComesFirst(lines) {
      var i :| 0 <= i < |lines| && IsText(lines[i]) && forall j :: 0 <= j < i ==> IsBlank(lines[j]);
      assert i > 0;
      assert IsText(rest[i - 1]);
      assert forall j :: 0 <= j < i - 1 ==> IsBlank(rest[j]) by {
        forall j | 0 <= j < i - 1
          ensures IsBlank(rest[j])
        {
          assert rest[j] == lines[j + 1];
        }
      }
    }
  }

  lemma {:induction false} RunAwaitingFails(e: seq<Statement>, lines: seq<string>)
    ensures Run(ParserState(e, AwaitingSpeaker), lines).Err? <==> TextComesFirst(lines)
    ensures Run(ParserState(e, AwaitingSpeaker), lines).Err? ==>
              Run(ParserState(e, AwaitingSpeaker), lines).error == TextBeforeSpeaker
  {
    var st := ParserState(e, AwaitingSpeaker);
    if |lines| == 0 {
    } else if IsBlank(lines[0]) {
      RunAwaitingFails(e, lines[1..]);
      TextComesFirstBlankHead(lines);
    } else if IsLabel(lines[0]) {
      RunWithSpeakerSucceeds(Step(st, lines[0]).value, lines[1..]);
      assert forall i :: 0 <= i < |lines| && IsText(lines[i]) ==> 0 < i && !IsBlank(lines[0]);
    } else {
      assert IsText(lines[0]);
    }
  }

  /** The "text before speaker label" error is raised exactly when the
      first non-blank line is not a label. */
  lemma TextBeforeSpeakerIff(lines: seq<string>)
    ensures Parse(lines) == Err(TextBeforeSpeaker) <==> TextComesFirst(lines)
  {
    RunAwaitingFails([], lines);
  }

  /** A stripped, non-empty text line: what the parser accumulates. */
  predicate IsTextLine(l: string) {
    |l| > 0 && IsStripped(l) && l[|l| - 1] != ':'
  }

  /** The shape of every statement the parser emits: a non-empty speaker
      whose label line is stripped, and a non-empty, stripped text that does
      not end in a colon. */
  predicate Canonical(s: Statement) {
    && s.speaker != "" && IsStripped(s.speaker + ":")
    && IsTextLine(s.text)
  }

  predicate ModeInv(m: Mode) {
    m.Accumulating? ==>
      && IsStripped(m.speaker + ":")
      && forall k :: 0 <= k < |m.lines| ==> IsTextLine(m.lines[k])
  }

  predicate StateInv(st: ParserState) {
    && (forall i :: 0 <= i < |st.emitted| ==> Canonical(st.emitted[i]))
    && ModeInv(st.mode)
  }

  lemma PendingCanonical(m: Mode)
    requires ModeInv(m)
    ensures forall i :: 0 <= i < |Pending(m)| ==> Canonical(Pending(m)[i])
  {
    if |Pending(m)| > 0 {
      forall k | 0 <= k < |m.lines|
        ensures |m.lines[k]| > 0
      {
        assert IsTextLine(m.lines[k]);
      }
      JoinEnds(m.lines, " ");
      assert IsTextLine(m.lines[|m.lines| - 1]);
    }
  }

  lemma StepKeepsInv(st: ParserState, line: string)
    requires StateInv(st)
    requires Step(st, line).Ok?
    ensures StateInv(Step(st, line).value)
  {
    var l := Strip(line);
    if IsLabel(line) {
      PendingCanonical(st.mode);
      assert l[..|l| - 1] + ":" == l;
    } else if IsText(line) {
      assert l[|l| - 1] != ':';
    }
  }

  lemma {:induction false} RunKeepsInv(st: ParserState, lines: seq<string>)
    requires StateInv(st)
    requires Run(st, lines).Ok?
    ensures StateInv(Run(st, lines).value)
    decreases |lines|
  {
    if |lines| > 0 {
      StepKeepsInv(st, lines[0]);
      RunKeepsInv(Step(st, lines[0]).value, lines[1..]);
    }
  }

  /** Every statement of a successful parse has a non-empty speaker and a
      non-empty, stripped text. The speaker is what precedes the colon of a
      stripped label, so it may end in whitespace (`A :` names `A `). */
  lemma ParsedStatementsCanonical(lines: seq<string>)
    requires Parse(lines).Ok?
    ensures forall i :: 0 <= i < |Parse(lines).value.statements| ==>
              Canonical(Parse(lines).value.statements[i])
  {
    RunKeepsInv(Start, lines);
    PendingCanonical(Run(Start, lines).value.mode);
  }

  /** A speaker and the text lines that follow its label. */
  datatype Block = Block(speaker: string, lines: seq<string>)

  predicate WellFormedBlock(b: Block) {
    && b.speaker != "" && IsStripped(b.speaker + ":")
    && |b.lines| > 0
    && forall k :: 0 <= k < |b.lines| ==> IsTextLine(b.lines[k])
  }

  /** A transcript file laid out block by block: the label line, then the
      text lines. */
  function Layout(bs: seq<Block>): seq<string> {
    if |bs| == 0 then []
    else [bs[0].speaker + ":"] + bs[0].lines + Layout(bs[1..])
  }

  /** The statements the blocks stand for: each block's lines joined by
      single spaces. */
  function Collapse(bs: seq<Block>): seq<Statement> {
    seq(|bs|, i requires 0 <= i < |bs| => Statement(bs[i].speaker, Join(bs[i].lines, " ")))
  }

  lemma LabelLineIsLabel(speaker: string)
    requires IsStripped(speaker + ":")
    ensures IsLabel(speaker + ":")
    ensures Strip(speaker + ":")[..|speaker|] == speaker
  {
    StrippedIsFixed(speaker + ":");
  }

  lemma TextLineIsText(l: string)
    requires IsTextLine(l)
    ensures IsText(l) && Strip(l) == l
  {
    StrippedIsFixed(l);
  }

  lemma {:induction false} RunTextLines(st: ParserState, more: seq<string>)
    requires st.mode.Accumulating?
    requires forall k :: 0 <= k < |more| ==> IsTextLine(more[k])
    ensures Run(st, more) ==
              Ok(ParserState(st.emitted, Accumulating(st.mode.speaker, st.mode.lines + more)))
    decreases |more|
  {
    if |more| == 0 {
      assert st.mode.lines + more == st.mode.lines;
    } else {
      TextLineIsText(more[0]);
      var after := ParserState(st.emitted, Accumulating(st.mode.speaker, st.mode.lines + [more[0]]));
      assert Step(st, more[0]) == Ok(after);
      RunTextLines(after, more[1..]);
      assert st.mode.lines + [more[0]] + more[1..] == st.mode.lines + more;
    }
  }

  /** The lines of one block: its label line, then its text lines. */
  function BlockLines(b: Block): seq<string> {
    [b.speaker + ":"] + b.lines
  }

  /** One block flushes what was pending and leaves its own speaker and
      lines pending. */
  lemma RunBlock(st: ParserState, b: Block)
    requires WellFormedBlock(b)
    ensures Run(st, BlockLines(b)) ==
              Ok(ParserState(st.emitted + Pending(st.mode), Accumulating(b.speaker, b.lines)))
  {
    var header := b.speaker + ":";
    LabelLineIsLabel(b.speaker);
    var afterLabel := ParserState(st.emitted + Pending(st.mode), Accumulating(b.speaker, []));
    assert Step(st, header) == Ok(afterLabel);
    assert BlockLines(b)[0] == header && BlockLines(b)[1..] == b.lines;
    RunTextLines(afterLabel, b.lines);
    assert [] + b.lines == b.lines;
  }

  lemma {:induction false} RunLayout(st: ParserState, bs: seq<Block>)
    requires |bs| > 0
    requires forall i :: 0 <= i < |bs| ==> WellFormedBlock(bs[i])
    ensures Run(st, Layout(bs)) ==
              Ok(ParserState(st.emitted + Pending(st.mode) + Collapse(bs[..|bs| - 1]),
                             Accumulating(bs[|bs| - 1].speaker, bs[|bs| - 1].lines)))
    decreases |bs|
  {
    var b := bs[0];
    RunBlock(st, b);
    var afterBlock := ParserState(st.emitted + Pending(st.mode), Accumulating(b.speaker, b.lines));
    assert Layout(bs) == BlockLines(b) + Layout(bs[1..]);
    RunAppend(st, BlockLines(b), Layout(bs[1..]));
    assert Run(st, Layout(bs)) == Run(afterBlock, Layout(bs[1..]));
    if |bs| == 1 {
      assert Layout(bs[1..]) == [];
      assert Collapse(bs[..0]) == [];
      assert afterBlock.emitted + [] == afterBlock.emitted;
    } else {
      RunLayout(afterBlock, bs[1..]);
      var p := Pending(afterBlock.mode);
      assert p == [Statement(b.speaker, Join(b.lines, " "))];
      assert Collapse(bs[..|bs| - 1]) == p + Collapse(bs[1..][..|bs| - 2]);
      assert afterBlock.emitted + p + Collapse(bs[1..][..|bs| - 2])
          == st.emitted + Pending(st.mode) + Collapse(bs[..|bs| - 1]);
    }
  }

  /** Parsing a file laid out block by block gives one statement per block,
      in order, whose text is the block's lines joined by single spaces. */
  lemma ParseLayout(bs: seq<Block>)
    requires |bs| > 0
    requires forall i :: 0 <= i < |bs| ==> WellFormedBlock(bs[i])
    ensures Parse(Layout(bs)) == Ok(Transcript(Collapse(bs)))
  {
    RunLayout(Start, bs);
    var last := bs[|bs| - 1];
    var init := Collapse(bs[..|bs| - 1]);
    var final := ParserState(init, Accumulating(last.speaker, last.lines));
    assert [] + [] + init == init;
    ParseAfterRun(Layout(bs), final);
    CollapseSnoc(bs);
  }

  lemma CollapseSnoc(bs: seq<Block>)
    requires |bs| > 0
    ensures Collapse(bs) == Collapse(bs[..|bs| - 1])
                            + [Statement(bs[|bs| - 1].speaker, Join(bs[|bs| - 1].lines, " "))]
  {
  }

  lemma ParseAfterRun(lines: seq<string>, st: ParserState)
    requires Run(Start, lines) == Ok(st)
    requires st.mode.Accumulating? && st.mode.speaker != "" && |st.mode.lines| > 0
    ensures Parse(lines) == Ok(Transcript(st.emitted + [Statement(st.mode.speaker, Join(st.mode.lines, " "))]))
  {
  }

  /** The transcript written back in its file format: each statement as a
      label line followed by a single text line. */
  function Encode(t: Transcript): seq<string> {
    Layout(BlocksOf(t.statements))
  }

  function BlocksOf(ss: seq<Statement>): seq<Block> {
    seq(|ss|, i requires 0 <= i < |ss| => Block(ss[i].speaker, [ss[i].text]))
  }

  /** Writing a non-empty transcript of canonical statements in the file
      format and parsing it back gives the same transcript. */
  lemma ParseEncode(t: Transcript)
    requires |t.statements| > 0
    requires forall i :: 0 <= i < |t.statements| ==> Canonical(t.statements[i])
    ensures Parse(Encode(t)) == Ok(t)
  {
    var bs := BlocksOf(t.statements);
    assert forall i :: 0 <= i < |bs| ==> WellFormedBlock(bs[i]);
    ParseLayout(bs);
    assert Collapse(bs) == t.statements;
  }

  /** Parsing normalises: whatever the parser accepts, writing its result
      back out and parsing again changes nothing. */
  lemma ParseIsNormalForm(lines: seq<string>)
    requires Parse(lines).Ok?
    ensures Parse(Encode(Parse(lines).value)) == Parse(lines)
  {
    ParsedStatementsCanonical(lines);
    ParseEncode(Parse(lines).value);
  }
}

=== FILE: iso_datetime.dfy ===
/** Naive date-times and the two textual forms the session store uses:
    the ISO 8601 complete representation in extended format
    (`YYYY-MM-DDThh:mm:ss`, with `.ffffff` appended when the microsecond
    is not zero; ISO 8601:2004 section 4.3.2) written by
    `datetime.isoformat()` and read by `datetime.fromisoformat()`, and the
    compact `strftime("%Y%m%d_%H%M%S")` stamp that names session files. */
module DateTimes {
  import opened Results

  /** A date-time as its seven fields, before any range check. */
  datatype Fields = Fields(year: int, month: int, day: int,
                           hour: int, minute: int, second: int, microsecond: int)

  predicate IsLeapYear(y: int) {
    y % 4 == 0 && (y % 100 != 0 || y % 400 == 0)
  }

  function DaysInMonth(y: int, m: int): int
    requires 1 <= m <= 12
  {
    if m == 2 then (if IsLeapYear(y) then 29 else 28)
    else if m == 4 || m == 6 || m == 9 || m == 11 then 30
    else 31
  }

  /** The ranges Python's `datetime` enforces on construction. */
  predicate Valid(f: Fields) {
    && 1 <= f.year <= 9999
    && 1 <= f.month <= 12
    && 1 <= f.day <= DaysInMonth(f.year, f.month)
    && 0 <= f.hour < 24
    && 0 <= f.minute < 60
    && 0 <= f.second < 60
    && 0 <= f.microsecond < 1000000
  }

  /** A naive `datetime.datetime`: every value satisfies the range checks. */
  type DateTime = f: Fields | Valid(f) witness Fields(1, 1, 1, 0, 0, 0, 0)

  /** The same instant with the sub-second part dropped. */
  function Truncate(dt: DateTime): DateTime {
    dt.(microsecond := 0)
  }

  // ---------------------------------------------------------------------
  // Fixed-width decimal fields
  // ---------------------------------------------------------------------

  function Pow10(n: nat): nat {
    if n == 0 then 1 else 10 * Pow10(n - 1)
  }

  predicate IsDigit(c: char) {
    '0' <= c <= '9'
  }

  function DigitChar(d: nat): char
    requires d < 10
  {
    ('0' as int + d) as char
  }

  /** `n` written in exactly `width` decimal digits, zero-padded on the left
      (the `%0Nd` of C's printf, which `isoformat` and `strftime` use). */
  function Digits(n: nat, width: nat): (r: string)
    ensures |r| == width
    ensures forall i :: 0 <= i < |r| ==> IsDigit(r[i])
  {
    if width == 0 then "" else Digits(n / 10, width - 1) + [DigitChar(n % 10)]
  }

  /** The number a string of decimal digits denotes; `None` if any
      character is not a digit. */
  function ReadDigits(s: string): Option<nat> {
    if |s| == 0 then Some(0)
    else if !IsDigit(s[|s| - 1]) then None
    else match ReadDigits(s[..|s| - 1])
      case None => None
      case Some(v) => Some(10 * v + (s[|s| - 1] as int - '0' as int))
  }

  /** Reading back a zero-padded field gives the number that was written,
      whenever it fits in the width. */
  lemma {:induction false} ReadDigitsOfDigits(n: nat, width: nat)
    requires n < Pow10(width)
    ensures ReadDigits(Digits(n, width)) == Some(n)
  {
    if width > 0 {
      var s := Digits(n, width);
      assert s[..|s| - 1] == Digits(n / 10, width - 1);
      ReadDigitsOfDigits(n / 10, width - 1);
    }
  }

  // ---------------------------------------------------------------------
  // ISO 8601 extended format
  // ---------------------------------------------------------------------

  /** `datetime.isoformat()` of a naive date-time. */
  function IsoFormat(dt: DateTime): (r: string)
    ensures |r| == (if dt.microsecond == 0 then 19 else 26)
  {
    IsoDate(dt) + "T" + IsoTime(dt)
    + (if dt.microsecond == 0 then "" else "." + Digits(dt.microsecond, 6))
  }

  /** `YYYY-MM-DD` */
  function IsoDate(dt: DateTime): (r: string)
    ensures |r| == 10
  {
    Digits(dt.year, 4) + "-" + Digits(dt.month, 2) + "-" + Digits(dt.day, 2)
  }

  /** `hh:mm:ss` */
  function IsoTime(dt: DateTime): (r: string)
    ensures |r| == 8
  {
    Digits(dt.hour, 2) + ":" + Digits(dt.minute, 2) + ":" + Digits(dt.second, 2)
  }

  /** The digits of `s[lo..hi]` as a number. */
  function Field(s: string, lo: nat, hi: nat): Option<nat>
    requires lo <= hi <= |s|
  {
    ReadDigits(s[lo..hi])
  }

  /** `datetime.fromisoformat()` restricted to the two shapes `isoformat()`
      writes: `YYYY-MM-DDThh:mm:ss` and `YYYY-MM-DDThh:mm:ss.ffffff`.
      `None` for any other text or for fields out of range. */
  function ParseIso(s: string): (r: Option<DateTime>)
    ensures r.Some? ==> |s| == 19 || |s| == 26
  {
    if |s| != 19 && |s| != 26 then None
    else if s[4] != '-' || s[7] != '-' || s[10] != 'T' || s[13] != ':' || s[16] != ':' then None
    else if |s| == 26 && s[19] != '.' then None
    else
      var year := Field(s, 0, 4);
      var month := Field(s, 5, 7);
      var day := Field(s, 8, 10);
      var hour := Field(s, 11, 13);
      var minute := Field(s, 14, 16);
      var second := Field(s, 17, 19);
      var micro := if |s| == 26 then Field(s, 20, 26) else Some(0);
      if year.None? || month.None? || day.None? || hour.None? || minute.None? || second.None? || micro.None?
      then None
      else
        var f := Fields(year.value, month.value, day.value,
                        hour.value, minute.value, second.value, micro.value);
        if Valid(f) then Some(f) else None
  }

  lemma FieldsOfIsoDate(dt: DateTime, s: string)
    requires |s| >= 10 && s[..10] == IsoDate(dt)
    ensures s[4] == '-' && s[7] == '-'
    ensures s[0..4] == Digits(dt.year, 4)
    ensures s[5..7] == Digits(dt.month, 2)
    ensures s[8..10] == Digits(dt.day, 2)
  {
    var d := IsoDate(dt);
    assert s[0..4] == d[0..4];
    assert s[5..7] == d[5..7];
    assert s[8..10] == d[8..10];
  }

  lemma FieldsOfIsoTime(dt: DateTime, s: string)
    requires |s| == 8 && s == IsoTime(dt)
    ensures s[2] == ':' && s[5] == ':'
    ensures s[0..2] == Digits(dt.hour, 2)
    ensures s[3..5] == Digits(dt.minute, 2)
    ensures s[6..8] == Digits(dt.second, 2)
  {
  }

  /** Formatting a date-time in ISO 8601 and reading it back gives the same
      date-time, microseconds included. */
  lemma IsoRoundTrip(dt: DateTime)
    ensures ParseIso(IsoFormat(dt)) == Some(dt)
  {
    var s := IsoFormat(dt);
    IsoFormatParts(dt);
    FieldsOfIsoDate(dt, s);
    var t := s[11..19];
    FieldsOfIsoTime(dt, t);
    assert s[13] == t[2] && s[16] == t[5];
    assert s[11..13] == t[0..2] && s[14..16] == t[3..5] && s[17..19] == t[6..8];
    ReadDigitsOfDigits(dt.year, 4);
    ReadDigitsOfDigits(dt.month, 2);
    ReadDigitsOfDigits(dt.day, 2);
    ReadDigitsOfDigits(dt.hour, 2);
    ReadDigitsOfDigits(dt.minute, 2);
    ReadDigitsOfDigits(dt.second, 2);
    if dt.microsecond != 0 {
      ReadDigitsOfDigits(dt.microsecond, 6);
    }
    ParseOfFields(s, dt);
  }

  /** Where date, time and fraction sit in the ISO text. */
  lemma IsoFormatParts(dt: DateTime)
    ensures IsoFormat(dt)[..10] == IsoDate(dt) && IsoFormat(dt)[10] == 'T'
    ensures IsoFormat(dt)[11..19] == IsoTime(dt)
    ensures dt.microsecond != 0 ==>
              IsoFormat(dt)[19] == '.' && IsoFormat(dt)[20..26] == Digits(dt.microsecond, 6)
  {
    var s := IsoFormat(dt);
    var head := IsoDate(dt) + "T" + IsoTime(dt);
    var tail := if dt.microsecond == 0 then "" else "." + Digits(dt.microsecond, 6);
    assert s == head + tail;
    assert s[..19] == head;
    assert head[..10] == IsoDate(dt) && head[10] == 'T' && head[11..19] == IsoTime(dt);
    if dt.microsecond != 0 {
      assert s[19..] == tail;
      assert tail[1..] == Digits(dt.microsecond, 6);
    }
  }

  /** A text of one of the two shapes whose fields read as those of `dt`
      parses to `dt`. */
  lemma ParseOfFields(s: string, dt: DateTime)
    requires |s| == 19 || |s| == 26
    requires s[4] == '-' && s[7] == '-' && s[10] == 'T' && s[13] == ':' && s[16] == ':'
    requires Field(s, 0, 4) == Some(dt.year) && Field(s, 5, 7) == Some(dt.month)
    requires Field(s, 8, 10) == Some(dt.day) && Field(s, 11, 13) == Some(dt.hour)
    requires Field(s, 14, 16) == Some(dt.minute) && Field(s, 17, 19) == Some(dt.second)
    requires |s| == 19 ==> dt.microsecond == 0
    requires |s| == 26 ==> s[19] == '.' && Field(s, 20, 26) == Some(dt.microsecond)
    ensures ParseIso(s) == Some(dt)
  {
  }

  /** A digit string is the zero-padded form, at its own width, of the
      number it denotes. */
  lemma {:induction false} DigitsOfReadDigits(s: string)
    requires ReadDigits(s).Some?
    ensures Digits(ReadDigits(s).value, |s|) == s
  {
    if |s| > 0 {
      var init := s[..|s| - 1];
      DigitsOfReadDigits(init);
      var v := ReadDigits(init).value;
      var d := s[|s| - 1] as int - '0' as int;
      var n := 10 * v + d;
      assert n / 10 == v && n % 10 == d;
      assert DigitChar(d) == s[|s| - 1];
      assert s == init + [s[|s| - 1]];
    }
  }

  /** The converse of the round trip: a text the parser accepts is exactly
      what `isoformat()` writes for the result, except that a fraction of
      `.000000` is not written back. */
  lemma FormatOfParseIso(s: string)
    requires ParseIso(s).Some?
    requires |s| == 19 || ParseIso(s).value.microsecond != 0
    ensures IsoFormat(ParseIso(s).value) == s
  {
    var dt := ParseIso(s).value;
    ParsedFields(s);
    FieldDigits(s, 0, 4, dt.year);
    FieldDigits(s, 5, 7, dt.month);
    FieldDigits(s, 8, 10, dt.day);
    FieldDigits(s, 11, 13, dt.hour);
    FieldDigits(s, 14, 16, dt.minute);
    FieldDigits(s, 17, 19, dt.second);
    IsoDateOfDigits(s, dt);
    IsoTimeOfDigits(s, dt);
    if |s| == 26 {
      FieldDigits(s, 20, 26, dt.microsecond);
    }
    IsoFormatOfParts(s, dt);
  }

  /** What an accepted text holds: the separators of its shape, and each
      field of the result at its fixed position. */
  lemma ParsedFields(s: string)
    requires ParseIso(s).Some?
    ensures |s| == 19 || |s| == 26
    ensures s[4] == '-' && s[7] == '-' && s[10] == 'T' && s[13] == ':' && s[16] == ':'
    ensures Field(s, 0, 4) == Some(ParseIso(s).value.year)
    ensures Field(s, 5, 7) == Some(ParseIso(s).value.month)
    ensures Field(s, 8, 10) == Some(ParseIso(s).value.day)
    ensures Field(s, 11, 13) == Some(ParseIso(s).value.hour)
    ensures Field(s, 14, 16) == Some(ParseIso(s).value.minute)
    ensures Field(s, 17, 19) == Some(ParseIso(s).value.second)
    ensures |s| == 19 ==> ParseIso(s).value.microsecond == 0
    ensures |s| == 26 ==> s[19] == '.' && Field(s, 20, 26) == Some(ParseIso(s).value.microsecond)
  {
  }

  /** Date, `T`, time and the fraction, in their places, make the text. */
  lemma IsoFormatOfParts(s: string, dt: DateTime)
    requires |s| == 19 || |s| == 26
    requires IsoDate(dt) == s[..10] && s[10] == 'T' && IsoTime(dt) == s[11..19]
    requires |s| == 19 ==> dt.microsecond == 0
    requires |s| == 26 ==> s[19] == '.' && dt.microsecond != 0 && Digits(dt.microsecond, 6) == s[20..26]
    ensures IsoFormat(dt) == s
  {
    if |s| == 26 {
      assert "." + Digits(dt.microsecond, 6) == s[19..];
      assert s == s[..10] + "T" + s[11..19] + s[19..];
    } else {
      assert s == s[..10] + "T" + s[11..19] + "";
    }
  }

  /** An accepted field is the zero-padded form, at its width, of its value. */
  lemma FieldDigits(s: string, lo: nat, hi: nat, v: nat)
    requires lo <= hi <= |s| && Field(s, lo, hi) == Some(v)
    ensures Digits(v, hi - lo) == s[lo..hi]
  {
    DigitsOfReadDigits(s[lo..hi]);
  }

  /** A stretch of text made of three fields with `sep` between them. */
  lemma ThreeFields(s: string, lo: nat, w1: nat, w2: nat, w3: nat, sep: char)
    requires lo + w1 + 1 + w2 + 1 + w3 <= |s|
    requires s[lo + w1] == sep && s[lo + w1 + 1 + w2] == sep
    ensures s[lo..lo + w1 + 1 + w2 + 1 + w3]
            == s[lo..lo + w1] + [sep] + s[lo + w1 + 1..lo + w1 + 1 + w2] + [sep]
               + s[lo + w1 + 1 + w2 + 1..lo + w1 + 1 + w2 + 1 + w3]
  {
  }

  /** The date part of an accepted text is the `YYYY-MM-DD` of its fields. */
  lemma IsoDateOfDigits(s: string, dt: DateTime)
    requires |s| >= 10 && s[4] == '-' && s[7] == '-'
    requires Digits(dt.year, 4) == s[0..4] && Digits(dt.month, 2) == s[5..7]
    requires Digits(dt.day, 2) == s[8..10]
    ensures IsoDate(dt) == s[..10]
  {
    ThreeFields(s, 0, 4, 2, 2, '-');
    assert s[..10] == s[0..10];
  }

  /** The time part of an accepted text is the `hh:mm:ss` of its fields. */
  lemma IsoTimeOfDigits(s: string, dt: DateTime)
    requires |s| >= 19 && s[13] == ':' && s[16] == ':'
    requires Digits(dt.hour, 2) == s[11..13] && Digits(dt.minute, 2) == s[14..16]
    requires Digits(dt.second, 2) == s[17..19]
    ensures IsoTime(dt) == s[11..19]
  {
    ThreeFields(s, 11, 2, 2, 2, ':');
  }

  // ---------------------------------------------------------------------
  // The `%Y%m%d_%H%M%S` stamp
  // ---------------------------------------------------------------------

  /** `strftime("%Y%m%d_%H%M%S")`: fifteen characters, one-second resolution. */
  function Stamp(dt: DateTime): (r: string)
    ensures |r| == 15
  {
    Digits(dt.year, 4) + Digits(dt.month, 2) + Digits(dt.day, 2) + "_"
    + Digits(dt.hour, 2) + Digits(dt.minute, 2) + Digits(dt.second, 2)
  }

  /** The second a stamp denotes, as a date-time with zero microseconds. */
  function ReadStamp(s: string): Option<DateTime> {
    if |s| != 15 || s[8] != '_' then None
    else
      var year := Field(s, 0, 4);
      var month := Field(s, 4, 6);
      var day := Field(s, 6, 8);
      var hour := Field(s, 9, 11);
      var minute := Field(s, 11, 13);
      var second := Field(s, 13, 15);
      if year.None? || month.None? || day.None? || hour.None? || minute.None? || second.None?
      then None
      else
        var f := Fields(year.value, month.value, day.value,
                        hour.value, minute.value, second.value, 0);
        if Valid(f) then Some(f) else None
  }

  /** A stamp can be read back, to the second. */
  lemma StampRoundTrip(dt: DateTime)
    ensures ReadStamp(Stamp(dt)) == Some(Truncate(dt))
  {
    var s := Stamp(dt);
    assert s[0..4] == Digits(dt.year, 4);
    assert s[4..6] == Digits(dt.month, 2);
    assert s[6..8] == Digits(dt.day, 2);
    assert s[8] == '_';
    assert s[9..11] == Digits(dt.hour, 2);
    assert s[11..13] == Digits(dt.minute, 2);
    assert s[13..] == Digits(dt.second, 2);
    assert s[13..15] == s[13..];
    ReadDigitsOfDigits(dt.year, 4);
    ReadDigitsOfDigits(dt.month, 2);
    ReadDigitsOfDigits(dt.day, 2);
    ReadDigitsOfDigits(dt.hour, 2);
    ReadDigitsOfDigits(dt.minute, 2);
    ReadDigitsOfDigits(dt.second, 2);
  }

  /** Two date-times have the same stamp exactly when they fall in the
      same second. */
  lemma StampIdentifiesSecond(a: DateTime, b: DateTime)
    ensures Stamp(a) == Stamp(b) <==> Truncate(a) == Truncate(b)
  {
    StampRoundTrip(a);
    StampRoundTrip(b);
  }
}

=== FILE: query_engine.dfy ===
/** The question-answering engine: the gate in front of the model, the
    conversation history it keeps, and the interactive loop that saves the
    history as a session when the user interrupts it.

    Retrieval (the vector store over the chunked corpus) and generation
    (the prompt sent to the model) are function parameters; the clock is
    an input. */
module Queries {
  import opened Results
  import opened Text
  import opened FileParser
  import opened DateTimes
  import opened Sessions

  /** The fixed refusal `query` returns when retrieval found nothing useful. */
  const CannotAnswer: string := "Diese Frage kann ich basierend auf dem gegebenen Kontext nicht beantworten."

  /** How many chunks `query` asks the vector store for. */
  const TopK: nat := 3

  /** Retrieved context shorter than this counts as none. The length is
      taken after stripping the joined context, so whitespace does not count
      toward it. */
  const MinContext: nat := 10

  /** The state of a `QueryEngine` that `query` reads and changes. */
  datatype Engine = Engine(transcript: Transcript, summary: string, startTime: DateTime,
                           history: seq<Exchange>)

  /** `QueryEngine.__init__`: an empty history and the start time taken
      from the clock. */
  function NewEngine(t: Transcript, summary: string, now: DateTime): (e: Engine)
    ensures e.history == []
    ensures e.transcript == t && e.summary == summary && e.startTime == now
  {
    Engine(t, summary, now, [])
  }

  /** The text the vector store is built from: the transcript's full text,
      a blank line, and the summary. */
  function Corpus(e: Engine): (r: string)
    ensures |r| == |FullText(e.transcript)| + 2 + |e.summary|
    ensures r[..|FullText(e.transcript)|] == FullText(e.transcript)
    ensures r[|FullText(e.transcript)|..|FullText(e.transcript)| + 2] == "\n\n"
    ensures r[|r| - |e.summary|..] == e.summary
  {
    FullText(e.transcript) + "\n\n" + e.summary
  }

  /** Similarity search: the corpus, the question and the number of chunks
      wanted, to the chunks found or an error. */
  type Retriever = (string, string, nat) -> Result<seq<string>, string>

  /** The prompt-and-model chain: the context and the question, to the raw
      answer or an error. */
  type Generator = (string, string) -> Result<string, string>

  /** The context handed to the model: the chunks, one per line. */
  function Context(chunks: seq<string>): (r: string)
    // the chunks can be told apart again when none spans a line break
    ensures |chunks| > 0 && (forall i :: 0 <= i < |chunks| ==> '\n' !in chunks[i]) ==>
              Split(r, '\n') == chunks
  {
    if |chunks| > 0 && (forall i :: 0 <= i < |chunks| ==> '\n' !in chunks[i]) then
      SplitJoin(chunks, '\n');
      Join(chunks, "\n")
    else
      Join(chunks, "\n")
  }

  /** Whether retrieved chunks are worth asking the model about: at least
      one chunk, and at least `MinContext` characters once the joined
      context is stripped. */
  function Grounded(chunks: seq<string>): (b: bool)
    ensures b ==> |chunks| > 0 && |Context(chunks)| >= MinContext
    ensures AllSpace(Context(chunks)) ==> !b
  {
    |chunks| > 0 && |Strip(Context(chunks))| >= MinContext
  }

  /** What `query` returns (an answer, or the error it re-raises) together
      with the engine after the call. */
  datatype Reply = Reply(answer: Result<string, string>, engine: Engine)

  /** `QueryEngine.query` at clock reading `now`. */
  function Query(e: Engine, question: string, retrieve: Retriever, generate: Generator,
                 now: DateTime): (r: Reply)
    // only the history changes, and only by one entry at its end
    ensures r.engine == e.(history := r.engine.history)
    ensures r.engine.history == e.history || |r.engine.history| == |e.history| + 1
    ensures r.engine.history[..|e.history|] == e.history
    // errors of retrieval or generation are passed on, with nothing recorded
    ensures retrieve(Corpus(e), question, TopK).Err? ==>
              r == Reply(Err(retrieve(Corpus(e), question, TopK).error), e)
    ensures && retrieve(Corpus(e), question, TopK).Ok?
            && Grounded(retrieve(Corpus(e), question, TopK).value)
            && generate(Context(retrieve(Corpus(e), question, TopK).value), question).Err? ==>
              r == Reply(Err(generate(Context(retrieve(Corpus(e), question, TopK).value), question).error), e)
    // the refusal, with nothing recorded, when the context is not grounded
    ensures retrieve(Corpus(e), question, TopK).Ok? && !Grounded(retrieve(Corpus(e), question, TopK).value) ==>
              r == Reply(Ok(CannotAnswer), e)
    // an entry is recorded exactly when the model produced an answer
    ensures |r.engine.history| == |e.history| + 1 <==>
              && retrieve(Corpus(e), question, TopK).Ok?
              && Grounded(retrieve(Corpus(e), question, TopK).value)
              && generate(Context(retrieve(Corpus(e), question, TopK).value), question).Ok?
    // and it records the question, the unstripped answer and the time;
    // the caller gets the stripped answer
    ensures |r.engine.history| == |e.history| + 1 ==>
              var entry := r.engine.history[|e.history|];
              && entry.question == question
              && entry.timestamp == IsoFormat(now)
              && entry.answer == generate(Context(retrieve(Corpus(e), question, TopK).value), question).value
              && r.answer == Ok(Strip(entry.answer))
  {
    match retrieve(Corpus(e), question, TopK)
    case Err(cause) => Reply(Err(cause), e)
    case Ok(chunks) =>
      if |chunks| == 0 then Reply(Ok(CannotAnswer), e)
      else if |Strip(Context(chunks))| < MinContext then Reply(Ok(CannotAnswer), e)
      else
        match generate(Context(chunks), question)
        case Err(cause) => Reply(Err(cause), e)
        case Ok(raw) =>
          Reply(Ok(Strip(raw)), e.(history := e.history + [Exchange(question, raw, IsoFormat(now))]))
  }

  /** When retrieval finds nothing useful the model is never consulted:
      the reply is the same whatever the model would have said. */
  lemma UngroundedIgnoresModel(e: Engine, question: string, retrieve: Retriever,
                               g1: Generator, g2: Generator, now: DateTime)
    requires retrieve(Corpus(e), question, TopK).Ok?
    requires !Grounded(retrieve(Corpus(e), question, TopK).value)
    ensures Query(e, question, retrieve, g1, now) == Query(e, question, retrieve, g2, now)
  {
  }

  /** A generated answer a caller receives is already stripped: stripping
      it again changes nothing. */
  lemma AnswerIsStripped(e: Engine, question: string, retrieve: Retriever, generate: Generator,
                         now: DateTime)
    requires Query(e, question, retrieve, generate, now).answer.Ok?
    requires |Query(e, question, retrieve, generate, now).engine.history| == |e.history| + 1
    ensures var a := Query(e, question, retrieve, generate, now).answer.value;
            Strip(a) == a
  {
    var a := Query(e, question, retrieve, generate, now).answer.value;
    StrippedIsFixed(a);
  }

  // ---------------------------------------------------------------------
  // The interactive loop
  // ---------------------------------------------------------------------

  /** One line typed at the `> ` prompt, and the clock reading when the
      engine records its answer. */
  datatype Input = Input(line: string, clock: DateTime)

  /** The lines of a run of inputs. */
  function Lines(inputs: seq<Input>): (r: seq<string>)
    ensures |r| == |inputs|
    ensures forall i :: 0 <= i < |inputs| ==> r[i] == inputs[i].line
  {
    seq(|inputs|, i requires 0 <= i < |inputs| => inputs[i].line)
  }

  /** A conversation: the answers printed, the engine at the end, and the
      error that ended it, if one did. */
  datatype Conversation = Conversation(answers: seq<string>, engine: Engine, failure: Option<string>)

  /** Whether every entry of `h` from index `from` on records a question
      that is not blank. */
  predicate AskedAfter(h: seq<Exchange>, from: nat) {
    forall k :: from <= k < |h| ==> !IsBlank(h[k].question)
  }

  /** The questions of a history, in order. */
  function Questions(h: seq<Exchange>): (r: seq<string>)
    ensures |r| == |h|
    ensures forall k :: 0 <= k < |h| ==> r[k] == h[k].question
  {
    seq(|h|, k requires 0 <= k < |h| => h[k].question)
  }

  /** Whether `a` can be obtained from `b` by deleting elements. */
  predicate IsSubsequence<T(==)>(a: seq<T>, b: seq<T>)
    decreases |b|
  {
    if |a| == 0 then true
    else if |b| == 0 then false
    else (a[0] == b[0] && IsSubsequence(a[1..], b[1..])) || IsSubsequence(a, b[1..])
  }

  /** The non-blank lines of a run of inputs: those of its tail, after the
      first line unless that is blank. */
  lemma TypedLinesCons(inputs: seq<Input>)
    requires |inputs| > 0
    ensures NonBlank(Lines(inputs))
            == (if IsBlank(inputs[0].line) then [] else [inputs[0].line]) + NonBlank(Lines(inputs[1..]))
  {
    assert Lines(inputs)[1..] == Lines(inputs[1..]);
  }

  /** One step of the loop keeps every recorded question non-blank. */
  lemma AskedStep(before: seq<Exchange>, mid: seq<Exchange>, after: seq<Exchange>, line: string)
    requires !IsBlank(line)
    requires |before| <= |mid| <= |after|
    requires mid[..|before|] == before && after[..|mid|] == mid
    requires |mid| == |before| || (|mid| == |before| + 1 && mid[|before|].question == line)
    requires AskedAfter(after, |mid|)
    ensures AskedAfter(after, |before|)
  {
    if |mid| > |before| {
      assert after[|before|] == mid[|before|];
    }
  }

  /** One step of the loop keeps the recorded questions a subsequence of
      the typed ones: the step records the line it was given, or nothing. */
  lemma QuestionsStep(before: seq<Exchange>, mid: seq<Exchange>, after: seq<Exchange>,
                      line: string, typed: seq<string>)
    requires |before| <= |mid| <= |after|
    requires mid[..|before|] == before && after[..|mid|] == mid
    requires |mid| == |before| || (|mid| == |before| + 1 && mid[|before|].question == line)
    requires IsSubsequence(Questions(after[|mid|..]), typed)
    ensures IsSubsequence(Questions(after[|before|..]), [line] + typed)
  {
    var qs := Questions(after[|before|..]);
    var rest := Questions(after[|mid|..]);
    assert ([line] + typed)[1..] == typed;
    if |mid| == |before| {
      assert qs == rest;
    } else {
      assert after[|before|] == mid[|before|];
      assert qs == [line] + rest;
      assert qs[1..] == rest;
    }
  }

  /** The loop of `start_interactive` over the inputs typed before the
      interrupt: blank lines are skipped, every other line is put to
      `query` and its answer printed, and an error from `query` ends the
      loop. */
  function Converse(e: Engine, inputs: seq<Input>, retrieve: Retriever, generate: Generator): (c: Conversation)
    ensures c.engine == e.(history := c.engine.history)
    ensures |c.engine.history| >= |e.history| && c.engine.history[..|e.history|] == e.history
    ensures AskedAfter(c.engine.history, |e.history|)
    // the questions recorded are typed lines, in the order typed
    ensures IsSubsequence(Questions(c.engine.history[|e.history|..]), NonBlank(Lines(inputs)))
    ensures c.failure.None? ==> |c.answers| == |NonBlank(Lines(inputs))|
    decreases |inputs|
  {
    if |inputs| == 0 then
      assert e.history[|e.history|..] == [];
      Conversation([], e, None)
    else
      var rest := inputs[1..];
      TypedLinesCons(inputs);
      if IsBlank(inputs[0].line) then
        assert NonBlank(Lines(inputs)) == NonBlank(Lines(rest));
        Converse(e, rest, retrieve, generate)
      else
        var line := inputs[0].line;
        var r := Query(e, line, retrieve, generate, inputs[0].clock);
        match r.answer
        case Err(cause) =>
          assert r.engine.history[|e.history|..] == [];
          Conversation([], r.engine, Some(cause))
        case Ok(a) =>
          var c := Converse(r.engine, rest, retrieve, generate);
          AskedStep(e.history, r.engine.history, c.engine.history, line);
          QuestionsStep(e.history, r.engine.history, c.engine.history, line, NonBlank(Lines(rest)));
          Conversation([a] + c.answers, c.engine, c.failure)
  }

  /** The inputs that are not blank, in order, each with the clock it was
      typed at: a subsequence of the inputs that keeps every non-blank one. */
  function Typed(inputs: seq<Input>): (r: seq<Input>)
    ensures IsSubsequence(r, inputs)
    ensures forall k :: 0 <= k < |r| ==> !IsBlank(r[k].line)
    ensures Lines(r) == NonBlank(Lines(inputs))
    decreases |inputs|
  {
    if |inputs| == 0 then []
    else
      TypedLinesCons(inputs);
      var rest := Typed(inputs[1..]);
      if IsBlank(inputs[0].line) then
        assert NonBlank(Lines(inputs)) == NonBlank(Lines(inputs[1..]));
        SubsequenceOfTail(rest, inputs);
        rest
      else
        TypedKeeps(inputs, rest);
        [inputs[0]] + rest
  }

  /** The step of `Typed` that keeps a non-blank first input. */
  lemma TypedKeeps(inputs: seq<Input>, rest: seq<Input>)
    requires |inputs| > 0 && !IsBlank(inputs[0].line)
    requires IsSubsequence(rest, inputs[1..])
    requires forall k :: 0 <= k < |rest| ==> !IsBlank(rest[k].line)
    ensures IsSubsequence([inputs[0]] + rest, inputs)
    ensures forall k :: 0 <= k < |rest| + 1 ==> !IsBlank(([inputs[0]] + rest)[k].line)
    ensures Lines([inputs[0]] + rest) == [inputs[0].line] + Lines(rest)
  {
    var r := [inputs[0]] + rest;
    assert r[0] == inputs[0] && r[1..] == rest;
  }

  /** Deleting the first element of the longer sequence keeps a
      subsequence a subsequence. */
  lemma SubsequenceOfTail<T>(a: seq<T>, b: seq<T>)
    requires |b| > 0 && IsSubsequence(a, b[1..])
    ensures IsSubsequence(a, b)
  {
  }

  /** A single input is kept exactly when its line is not blank. */
  lemma TypedOne(x: Input)
    ensures Typed([x]) == (if IsBlank(x.line) then [] else [x])
  {
    assert [x][1..] == [];
  }

  /** Keeping the non-blank inputs distributes over concatenation, so
      together with `TypedOne` it fixes `Typed` input by input. */
  lemma {:induction false} TypedAppend(a: seq<Input>, b: seq<Input>)
    ensures Typed(a + b) == Typed(a) + Typed(b)
    decreases |a|
  {
    if |a| == 0 {
      assert a + b == b;
    } else {
      assert (a + b)[0] == a[0];
      assert (a + b)[1..] == a[1..] + b;
      TypedAppend(a[1..], b);
    }
  }

  /** A single typed line is put to `query`: its answer is printed and the
      loop goes on, or its error ends the loop. A blank line does nothing. */
  lemma ConverseOne(e: Engine, i: Input, retrieve: Retriever, generate: Generator)
    ensures IsBlank(i.line) ==> Converse(e, [i], retrieve, generate) == Conversation([], e, None)
    ensures !IsBlank(i.line) ==>
              var r := Query(e, i.line, retrieve, generate, i.clock);
              Converse(e, [i], retrieve, generate)
              == (if r.answer.Ok? then Conversation([r.answer.value], r.engine, None)
                  else Conversation([], r.engine, Some(r.answer.error)))
  {
    assert [i][1..] == [];
    assert [i][0] == i;
  }

  /** The loop on a run whose first line is answered: that answer, then
      the loop on the rest from the engine `query` left. */
  lemma ConverseCons(e: Engine, x: Input, tail: seq<Input>, retrieve: Retriever, generate: Generator)
    requires !IsBlank(x.line) && Query(e, x.line, retrieve, generate, x.clock).answer.Ok?
    ensures var r := Query(e, x.line, retrieve, generate, x.clock);
            var c := Converse(r.engine, tail, retrieve, generate);
            Converse(e, [x] + tail, retrieve, generate)
            == Conversation([r.answer.value] + c.answers, c.engine, c.failure)
  {
    assert ([x] + tail)[0] == x;
    assert ([x] + tail)[1..] == tail;
  }

  /** The step of `ConverseAppend` where the first line is answered. */
  lemma ConverseAppendOk(e: Engine, x: Input, a: seq<Input>, b: seq<Input>,
                         retrieve: Retriever, generate: Generator)
    requires !IsBlank(x.line) && Query(e, x.line, retrieve, generate, x.clock).answer.Ok?
    requires var r := Query(e, x.line, retrieve, generate, x.clock);
             var ca := Converse(r.engine, a, retrieve, generate);
             Converse(r.engine, a + b, retrieve, generate)
             == (if ca.failure.Some? then ca
                 else Conversation(ca.answers + Converse(ca.engine, b, retrieve, generate).answers,
                                   Converse(ca.engine, b, retrieve, generate).engine,
                                   Converse(ca.engine, b, retrieve, generate).failure))
    ensures var ca := Converse(e, [x] + a, retrieve, generate);
            Converse(e, [x] + (a + b), retrieve, generate)
            == (if ca.failure.Some? then ca
                else var cb := Converse(ca.engine, b, retrieve, generate);
                     Conversation(ca.answers + cb.answers, cb.engine, cb.failure))
  {
    ConverseCons(e, x, a, retrieve, generate);
    ConverseCons(e, x, a + b, retrieve, generate);
    var r := Query(e, x.line, retrieve, generate, x.clock);
    var ca := Converse(r.engine, a, retrieve, generate);
    AnswerThenAppend(r.answer.value, ca, Converse(ca.engine, b, retrieve, generate),
                     Converse(r.engine, a + b, retrieve, generate));
  }

  /** The bookkeeping of `ConverseAppendOk`: putting one answer in front
      commutes with continuing on a second run of input. */
  lemma AnswerThenAppend(x: string, ca: Conversation, cb: Conversation, rest: Conversation)
    requires rest == (if ca.failure.Some? then ca
                      else Conversation(ca.answers + cb.answers, cb.engine, cb.failure))
    ensures var whole := Conversation([x] + ca.answers, ca.engine, ca.failure);
            Conversation([x] + rest.answers, rest.engine, rest.failure)
            == (if whole.failure.Some? then whole
                else Conversation(whole.answers + cb.answers, cb.engine, cb.failure))
  {
    assert [x] + (ca.answers + cb.answers) == ([x] + ca.answers) + cb.answers;
  }

  /** The loop over two runs of input is the loop over the first and then,
      unless that ended in an error, the loop over the second from the
      engine the first left, with the printed answers in order. */
  lemma {:induction false} ConverseAppend(e: Engine, a: seq<Input>, b: seq<Input>,
                                          retrieve: Retriever, generate: Generator)
    ensures var ca := Converse(e, a, retrieve, generate);
            Converse(e, a + b, retrieve, generate)
            == (if ca.failure.Some? then ca
                else var cb := Converse(ca.engine, b, retrieve, generate);
                     Conversation(ca.answers + cb.answers, cb.engine, cb.failure))
    decreases |a|
  {
    if |a| == 0 {
      assert a + b == b;
      assert [] + Converse(e, b, retrieve, generate).answers == Converse(e, b, retrieve, generate).answers;
    } else {
      assert (a + b)[0] == a[0];
      assert (a + b)[1..] == a[1..] + b;
      if IsBlank(a[0].line) {
        ConverseAppend(e, a[1..], b, retrieve, generate);
      } else {
        var r := Query(e, a[0].line, retrieve, generate, a[0].clock);
        if r.answer.Ok? {
          ConverseAppend(r.engine, a[1..], b, retrieve, generate);
          assert a == [a[0]] + a[1..];
          assert a + b == [a[0]] + (a[1..] + b);
          ConverseAppendOk(e, a[0], a[1..], b, retrieve, generate);
        }
      }
    }
  }

  /** Blank lines at the prompt make no difference at all: the same
      answers, history and outcome as if they had never been typed. */
  lemma {:induction false} BlankInputsIgnored(e: Engine, inputs: seq<Input>, retrieve: Retriever,
                                              generate: Generator)
    ensures Converse(e, inputs, retrieve, generate) == Converse(e, Typed(inputs), retrieve, generate)
    decreases |inputs|
  {
    if |inputs| > 0 {
      var rest := inputs[1..];
      if IsBlank(inputs[0].line) {
        BlankInputsIgnored(e, rest, retrieve, generate);
      } else {
        var t := [inputs[0]] + Typed(rest);
        assert t[0] == inputs[0] && t[1..] == Typed(rest);
        var r := Query(e, inputs[0].line, retrieve, generate, inputs[0].clock);
        BlankInputsIgnored(r.engine, rest, retrieve, generate);
      }
    }
  }

  /** What `start_interactive` leaves behind: the conversation, and the
      file system after it. When the loop ends by the interrupt the session
      (transcript path, start time, full history, summary) is saved; when
      `query` raised, nothing is saved. */
  method StartInteractive(e: Engine, transcriptPath: string, inputs: seq<Input>,
                          retrieve: Retriever, generate: Generator,
                          fs: FileSystem, outputDir: Path)
    returns (answers: seq<string>, last: Engine, failure: Option<string>, after: FileSystem)
    ensures Conversation(answers, last, failure) == Converse(e, inputs, retrieve, generate)
    ensures failure.Some? ==> after == fs
    ensures failure.None? ==>
              after == SaveSession(fs, outputDir, Session(transcriptPath, e.startTime, last.history, e.summary))
  {
    answers := [];
    last := e;
    failure := None;
    var i := 0;
    while i < |inputs|
      invariant 0 <= i <= |inputs|
      invariant Converse(e, inputs, retrieve, generate)
                == (var c := Converse(last, inputs[i..], retrieve, generate);
                    Conversation(answers + c.answers, c.engine, c.failure))
      invariant last.startTime == e.startTime && last.summary == e.summary
    {
      var line := inputs[i].line;
      assert inputs[i..][1..] == inputs[i + 1..];
      if !IsBlank(line) {
        var r := Query(last, line, retrieve, generate, inputs[i].clock);
        if r.answer.Err? {
          failure := Some(r.answer.error);
          last := r.engine;
          after := fs;
          return;
        }
        answers := answers + [r.answer.value];
        last := r.engine;
      }
      i := i + 1;
    }
    assert inputs[i..] == [];
    after := SaveSession(fs, outputDir, Session(transcriptPath, e.startTime, last.history, e.summary));
  }

  /** After an interrupted session the saved file loads back as the whole
      conversation: every question answered, with its answer and time. */
  lemma InterruptedSessionLoads(e: Engine, transcriptPath: string, inputs: seq<Input>,
                                retrieve: Retriever, generate: Generator,
                                fs: FileSystem, outputDir: Path)
    requires Converse(e, inputs, retrieve, generate).failure.None?
    ensures var c := Converse(e, inputs, retrieve, generate);
            var s := Session(transcriptPath, e.startTime, c.engine.history, e.summary);
            LoadSession(SaveSession(fs, outputDir, s), SessionFile(outputDir, e.startTime)) == Ok(s)
  {
    var c := Converse(e, inputs, retrieve, generate);
    SaveThenLoad(fs, outputDir, Session(transcriptPath, e.startTime, c.engine.history, e.summary));
  }
}

=== FILE: results.dfy ===
/** Failure-carrying values used by every other module: Python exceptions
    become `Err` values, optional lookups become `Option`. */
module Results {

  datatype Option<+T> = None | Some(value: T)

  datatype Result<+T, +E> = Ok(value: T) | Err(error: E)
}

=== FILE: scenarios.dfy ===
/** What the parser model gives for concrete transcripts: the cases the
    repository's own tests describe, and two edge cases of the label rule. */
module Scenarios {
  import opened Results
  import opened Text
  import opened FileParser

  /** A four-turn classroom exchange, one label line and one text line per
      turn. */
  const Classroom: seq<string> := [
    "TEACHER:", "Hallo zusammen!",
    "SPEAKER_01:", "Hallo!",
    "SPEAKER_02:", "Wie geht es Ihnen?",
    "TEACHER:", "Mir geht es gut, danke."]

  const ClassroomBlocks: seq<Block> := [
    Block("TEACHER", ["Hallo zusammen!"]),
    Block("SPEAKER_01", ["Hallo!"]),
    Block("SPEAKER_02", ["Wie geht es Ihnen?"]),
    Block("TEACHER", ["Mir geht es gut, danke."])]

  lemma ClassroomBlocksWellFormed()
    ensures forall i :: 0 <= i < |ClassroomBlocks| ==> WellFormedBlock(ClassroomBlocks[i])
  {
    var b := ClassroomBlocks;
    assert WellFormedBlock(b[0]) by {
      assert b[0].lines[0] == "Hallo zusammen!";
    }
    assert WellFormedBlock(b[1]) by {
      assert b[1].lines[0] == "Hallo!";
    }
    assert WellFormedBlock(b[2]) by {
      assert b[2].lines[0] == "Wie geht es Ihnen?";
    }
    assert WellFormedBlock(b[3]) by {
      assert b[3].lines[0] == "Mir geht es gut, danke.";
    }
  }

  const ClassroomStatements: seq<Statement> := [
    Statement("TEACHER", "Hallo zusammen!"),
    Statement("SPEAKER_01", "Hallo!"),
    Statement("SPEAKER_02", "Wie geht es Ihnen?"),
    Statement("TEACHER", "Mir geht es gut, danke.")]

  lemma ClassroomLayout()
    ensures Layout(ClassroomBlocks) == Classroom
  {
    var b := ClassroomBlocks;
    assert "TEACHER" + ":" == "TEACHER:";
    assert "SPEAKER_01" + ":" == "SPEAKER_01:";
    assert "SPEAKER_02" + ":" == "SPEAKER_02:";
    assert Layout(b[3..]) == BlockLines(b[3]) by {
      assert b[3..][1..] == [];
    }
    assert Layout(b[2..]) == BlockLines(b[2]) + Layout(b[3..]) by {
      assert b[2..][1..] == b[3..];
    }
    assert Layout(b[1..]) == BlockLines(b[1]) + Layout(b[2..]) by {
      assert b[1..][1..] == b[2..];
    }
  }

  lemma ClassroomCollapse()
    ensures Collapse(ClassroomBlocks) == ClassroomStatements
  {
    var b := ClassroomBlocks;
    forall i | 0 <= i < 4
      ensures Join(b[i].lines, " ") == b[i].lines[0]
    {
    }
  }

  /** The valid transcript parses to its four statements, in order. */
  lemma ClassroomParses()
    ensures Parse(Classroom) == Ok(Transcript(ClassroomStatements))
  {
    ClassroomBlocksWellFormed();
    ParseLayout(ClassroomBlocks);
    ClassroomLayout();
    ClassroomCollapse();
  }

  /** Of the four statements only the student line holding a question mark
      is a student question; the teacher's lines never are. */
  lemma ClassroomQuestions()
    ensures StudentQuestions(Transcript(ClassroomStatements)) == [Statement("SPEAKER_02", "Wie geht es Ihnen?")]
  {
    var ss := ClassroomStatements;
    assert !IsStudentQuestion(ss[3]);
    assert QuestionsIn(ss[3..]) == [] by {
      assert ss[3..][1..] == [];
    }
    assert IsStudentQuestion(ss[2]) by {
      assert ss[2].text[17] == '?';
    }
    assert QuestionsIn(ss[2..]) == [ss[2]] by {
      assert ss[2..][1..] == ss[3..];
    }
    assert !IsStudentQuestion(ss[1]) by {
      assert forall i :: 0 <= i < |ss[1].text| ==> ss[1].text[i] != '?';
    }
    assert QuestionsIn(ss[1..]) == [ss[2]] by {
      assert ss[1..][1..] == ss[2..];
    }
    assert !IsStudentQuestion(ss[0]);
  }

  /** A text line before the first label is rejected. */
  lemma TextBeforeLabelRejected()
    ensures Parse(["Invalid line", "TEACHER:", "Hallo!"]) == Err(TextBeforeSpeaker)
  {
    var lines := ["Invalid line", "TEACHER:", "Hallo!"];
    TextLineIsText(lines[0]);
    TextBeforeSpeakerIff(lines);
  }

  /** A label followed directly by another label emits nothing for the
      first speaker. */
  lemma EmptyTurnDropped()
    ensures Parse(["A:", "B:", "hi"]) == Ok(Transcript([Statement("B", "hi")]))
  {
    var bs := [Block("B", ["hi"])];
    assert WellFormedBlock(bs[0]);
    assert IsStripped("A:");
    StrippedIsFixed("A:");
    assert IsLabel("A:");
    assert Strip("A:")[..1] == "A";
    var afterLabel := ParserState([], Accumulating("A", []));
    assert Pending(Start.mode) == [];
    var r := Step(Start, "A:");
    assert r.Ok?;
    assert r.value.emitted == [];
    assert r.value.mode.speaker == "A";
    assert r.value.mode.lines == [];
    assert Step(Start, "A:") == Ok(afterLabel);
    RunLayout(afterLabel, bs);
    var lines := ["A:", "B:", "hi"];
    assert bs[1..] == [];
    assert "B" + ":" == "B:";
    assert Layout(bs) == ["B:", "hi"];
    assert lines[1..] == Layout(bs);
    assert Run(Start, lines) == Run(afterLabel, lines[1..]);
    assert Pending(afterLabel.mode) == [] && Collapse(bs[..0]) == [];
    assert Run(Start, lines) == Ok(ParserState([], Accumulating("B", ["hi"])));
    assert Join(["hi"], " ") == "hi";
    ParseAfterRun(lines, ParserState([], Accumulating("B", ["hi"])));
    assert [] + [Statement("B", "hi")] == [Statement("B", "hi")];
  }

  /** A bare colon is a label for the empty speaker, whose text is then
      dropped. */
  lemma EmptySpeakerDropped()
    ensures Parse([":", "x"]) == Err(NoStatements)
  {
    assert IsStripped(":");
    StrippedIsFixed(":");
    assert IsLabel(":");
    var afterLabel := ParserState([], Accumulating("", []));
    var r := Step(Start, ":");
    assert r.Ok? && r.value.emitted == [] && r.value.mode.speaker == "" && r.value.mode.lines == [];
    assert r == Ok(afterLabel);
    assert IsTextLine("x");
    TextLineIsText("x");
    var filled := ParserState([], Accumulating("", ["x"]));
    var r2 := Step(afterLabel, "x");
    assert r2.Ok? && r2.value.emitted == [] && r2.value.mode.speaker == "" && r2.value.mode.lines == ["x"];
    assert r2 == Ok(filled);
    var lines := [":", "x"];
    assert lines[1..][1..] == [];
    assert Run(Start, lines) == Ok(filled);
  }
}

=== FILE: session.dfy ===
/** Saved conversation sessions: the record written for each session, the
    file name derived from its start time, and the directory listing that
    finds saved sessions again.

    The file system is a map from paths (sequences of path components) to
    the JSON document each file holds; JSON text encoding is not modelled. */
module Sessions {
  import opened Results
  import opened DateTimes

  /** A path as its components: `out/sessions/x.json` is `["out", "sessions", "x.json"]`. */
  type Path = seq<string>

  /** One question put to the engine, the answer it generated and the
      ISO 8601 time it was recorded. */
  datatype Exchange = Exchange(question: string, answer: string, timestamp: string)

  datatype Session = Session(transcriptPath: string, startTime: DateTime,
                             questions: seq<Exchange>, summary: string)

  /** The JSON values a session file holds. */
  datatype Json = JString(str: string) | JArray(items: seq<Json>) | JObject(fields: map<string, Json>)

  type FileSystem = map<Path, Json>

  const TranscriptKey: string := "transcript"
  const StartTimeKey: string := "start_time"
  const QuestionsKey: string := "questions"
  const SummaryKey: string := "summary"

  /** `SessionManager.sessions_dir`: the `sessions` directory under the
      output directory. */
  function SessionsDir(outputDir: Path): (r: Path)
    ensures |r| == |outputDir| + 1 && r[..|outputDir|] == outputDir
    ensures r[|outputDir|] == "sessions"
  {
    outputDir + ["sessions"]
  }

  // ---------------------------------------------------------------------
  // File names
  // ---------------------------------------------------------------------

  const Prefix: string := "session_"
  const Suffix: string := ".json"

  /** The file name `save_session` uses: the start time to the second. */
  function FileName(start: DateTime): (r: string)
    ensures |r| == |Prefix| + 15 + |Suffix|
    ensures r[..|Prefix|] == Prefix && r[|Prefix|..|Prefix| + 15] == Stamp(start)
    ensures r[|Prefix| + 15..] == Suffix
  {
    Prefix + Stamp(start) + Suffix
  }

  function SessionFile(outputDir: Path, start: DateTime): Path {
    SessionsDir(outputDir) + [FileName(start)]
  }

  /** The pattern `list_sessions` globs for. */
  const Pattern: string := Prefix + "*" + Suffix

  /** Shell-style matching of a file name against a pattern made of literal
      characters and `*`, which stands for any run of characters. */
  function GlobMatch(pattern: string, name: string): bool
    decreases |pattern| + |name|
  {
    if |pattern| == 0 then |name| == 0
    else if pattern[0] == '*' then
      GlobMatch(pattern[1..], name) || (|name| > 0 && GlobMatch(pattern, name[1..]))
    else |name| > 0 && name[0] == pattern[0] && GlobMatch(pattern[1..], name[1..])
  }

  lemma {:induction false} GlobLiteral(lit: string, pattern: string, name: string)
    requires '*' !in lit
    ensures GlobMatch(lit + pattern, lit + name) == GlobMatch(pattern, name)
  {
    if |lit| > 0 {
      assert (lit + pattern)[0] == lit[0] && (lit + name)[0] == lit[0];
      assert (lit + pattern)[1..] == lit[1..] + pattern;
      assert (lit + name)[1..] == lit[1..] + name;
      assert lit[0] in lit;
      GlobLiteral(lit[1..], pattern, name);
    } else {
      assert lit + pattern == pattern && lit + name == name;
    }
  }

  lemma {:induction false} GlobStar(pattern: string, x: string, name: string)
    requires GlobMatch(pattern, name)
    ensures GlobMatch("*" + pattern, x + name)
  {
    if |x| > 0 {
      GlobStar(pattern, x[1..], name);
      assert (x + name)[1..] == x[1..] + name;
    } else {
      assert ("*" + pattern)[1..] == pattern;
      assert x + name == name;
    }
  }

  /** The listing pattern is `session_`, a star and `.json`. */
  lemma PatternParts()
    ensures '*' !in Prefix && '*' !in Suffix
    ensures Pattern == Prefix + ("*" + Suffix)
  {
  }

  /** Every name `<pre><anything><suf>` matches `<pre>*<suf>` when `pre`
      and `suf` are free of `*`. */
  lemma StarPatternMatches(pre: string, suf: string, middle: string)
    requires '*' !in pre && '*' !in suf
    ensures GlobMatch(pre + ("*" + suf), pre + middle + suf)
  {
    GlobLiteral(suf, "", "");
    assert suf + "" == suf;
    GlobStar(suf, middle, suf);
    assert pre + middle + suf == pre + (middle + suf);
    GlobLiteral(pre, "*" + suf, middle + suf);
  }

  /** Every name of the form `session_<anything>.json` matches the pattern
      `list_sessions` uses. */
  lemma PatternMatchesSessionNames(middle: string)
    ensures GlobMatch(Pattern, Prefix + middle + Suffix)
  {
    PatternParts();
    StarPatternMatches(Prefix, Suffix, middle);
  }

  /** A name matching a pattern that starts with literal characters starts
      with those characters, and its rest matches the rest of the pattern. */
  lemma {:induction false} GlobLiteralPrefix(lit: string, pattern: string, name: string)
    requires '*' !in lit
    requires GlobMatch(lit + pattern, name)
    ensures |lit| <= |name| && name[..|lit|] == lit && GlobMatch(pattern, name[|lit|..])
  {
    if |lit| > 0 {
      assert (lit + pattern)[0] == lit[0];
      assert lit[0] in lit;
      assert (lit + pattern)[1..] == lit[1..] + pattern;
      GlobLiteralPrefix(lit[1..], pattern, name[1..]);
      assert name[1..][|lit| - 1..] == name[|lit|..];
      assert name[..|lit|] == [name[0]] + name[1..][..|lit| - 1];
      assert lit == [lit[0]] + lit[1..];
    } else {
      assert lit + pattern == pattern;
    }
  }

  /** A name matching `*` followed by literal characters ends with them. */
  lemma {:induction false} GlobStarSuffix(lit: string, name: string)
    requires '*' !in lit
    requires GlobMatch("*" + lit, name)
    ensures |lit| <= |name| && name[|name| - |lit|..] == lit
    decreases |name|
  {
    assert ("*" + lit)[0] == '*';
    assert ("*" + lit)[1..] == lit;
    if GlobMatch(lit, name) {
      assert lit + "" == lit;
      GlobLiteralPrefix(lit, "", name);
    } else {
      GlobStarSuffix(lit, name[1..]);
      assert name[1..][|name| - 1 - |lit|..] == name[|name| - |lit|..];
    }
  }

  /** A name matching `<pre>*<suf>`, with `pre` and `suf` free of `*`,
      starts with `pre` and ends with `suf`. */
  lemma StarPatternShape(pre: string, suf: string, name: string)
    requires '*' !in pre && '*' !in suf
    requires GlobMatch(pre + ("*" + suf), name)
    ensures |name| >= |pre| + |suf|
    ensures name[..|pre|] == pre && name[|name| - |suf|..] == suf
  {
    GlobLiteralPrefix(pre, "*" + suf, name);
    var tail := name[|pre|..];
    GlobStarSuffix(suf, tail);
    assert tail[|tail| - |suf|..] == name[|name| - |suf|..];
  }

  /** A name that starts with `pre` and ends with `suf` matches `<pre>*<suf>`. */
  lemma StarPatternCovers(pre: string, suf: string, name: string)
    requires '*' !in pre && '*' !in suf
    requires |name| >= |pre| + |suf|
    requires name[..|pre|] == pre && name[|name| - |suf|..] == suf
    ensures GlobMatch(pre + ("*" + suf), name)
  {
    var middle := name[|pre|..|name| - |suf|];
    assert name == name[..|pre|] + middle + name[|name| - |suf|..];
    StarPatternMatches(pre, suf, middle);
  }

  /** `<pre>*<suf>` matches exactly the names that start with `pre` and
      end with `suf`. */
  lemma StarPatternIff(pre: string, suf: string, name: string)
    requires '*' !in pre && '*' !in suf
    ensures GlobMatch(pre + ("*" + suf), name) <==>
              && |name| >= |pre| + |suf|
              && name[..|pre|] == pre
              && name[|name| - |suf|..] == suf
  {
    if GlobMatch(pre + ("*" + suf), name) {
      StarPatternShape(pre, suf, name);
    }
    if && |name| >= |pre| + |suf|
       && name[..|pre|] == pre
       && name[|name| - |suf|..] == suf {
      StarPatternCovers(pre, suf, name);
    }
  }

  /** The listing pattern matches exactly the names that start with
      `session_` and end with `.json`: other files are never listed. */
  lemma SessionNamesIff(name: string)
    ensures GlobMatch(Pattern, name) <==>
              && |name| >= |Prefix| + |Suffix|
              && name[..|Prefix|] == Prefix
              && name[|name| - |Suffix|..] == Suffix
  {
    PatternParts();
    StarPatternIff(Prefix, Suffix, name);
  }

  /** Two sessions get the same file exactly when they started in the same
      second: a second save in that second overwrites the first. */
  lemma SessionFileIdentifiesSecond(outputDir: Path, a: DateTime, b: DateTime)
    ensures SessionFile(outputDir, a) == SessionFile(outputDir, b) <==> Truncate(a) == Truncate(b)
  {
    StampIdentifiesSecond(a, b);
    if SessionFile(outputDir, a) == SessionFile(outputDir, b) {
      var n := |SessionsDir(outputDir)|;
      assert FileName(a) == SessionFile(outputDir, a)[n];
      assert Stamp(a) == FileName(a)[8..23];
      assert Stamp(b) == FileName(b)[8..23];
    }
  }

  // ---------------------------------------------------------------------
  // The record
  // ---------------------------------------------------------------------

  function EncodeExchange(e: Exchange): Json {
    JObject(map["question" := JString(e.question),
                "answer" := JString(e.answer),
                "timestamp" := JString(e.timestamp)])
  }

  function EncodeExchanges(es: seq<Exchange>): (r: seq<Json>)
    ensures |r| == |es|
  {
    if |es| == 0 then [] else [EncodeExchange(es[0])] + EncodeExchanges(es[1..])
  }

  /** The dictionary `save_session` dumps. */
  function EncodeSession(s: Session): (r: map<string, Json>)
    ensures r.Keys == {TranscriptKey, StartTimeKey, QuestionsKey, SummaryKey}
    ensures r[TranscriptKey] == JString(s.transcriptPath)
    ensures r[StartTimeKey] == JString(IsoFormat(s.startTime))
    ensures r[SummaryKey] == JString(s.summary)
    ensures r[QuestionsKey].JArray? && |r[QuestionsKey].items| == |s.questions|
  {
    map[TranscriptKey := JString(s.transcriptPath),
        StartTimeKey := JString(IsoFormat(s.startTime)),
        QuestionsKey := JArray(EncodeExchanges(s.questions)),
        SummaryKey := JString(s.summary)]
  }

  /** Why a session file could not be loaded: no such file, a key missing
      from the document (Python's `KeyError`), a value of the wrong kind, or
      a start time `fromisoformat` rejects. */
  datatype LoadError = NotFound | NotAnObject | MissingKey(key: string) | WrongType(key: string) | BadStartTime(text: string)

  function DecodeExchange(j: Json): Option<Exchange> {
    if j.JObject? && "question" in j.fields && "answer" in j.fields && "timestamp" in j.fields
       && j.fields["question"].JString? && j.fields["answer"].JString? && j.fields["timestamp"].JString?
    then Some(Exchange(j.fields["question"].str, j.fields["answer"].str, j.fields["timestamp"].str))
    else None
  }

  function DecodeExchanges(js: seq<Json>): Option<seq<Exchange>> {
    if |js| == 0 then Some([])
    else match (DecodeExchange(js[0]), DecodeExchanges(js[1..]))
      case (Some(e), Some(es)) => Some([e] + es)
      case _ => None
  }

  lemma {:induction false} DecodeEncodeExchanges(es: seq<Exchange>)
    ensures DecodeExchanges(EncodeExchanges(es)) == Some(es)
  {
    if |es| > 0 {
      DecodeEncodeExchanges(es[1..]);
      assert EncodeExchanges(es)[1..] == EncodeExchanges(es[1..]);
      assert [es[0]] + es[1..] == es;
    }
  }

  /** The four keys `load_session` reads are all present. */
  predicate HasAllKeys(m: map<string, Json>) {
    TranscriptKey in m && StartTimeKey in m && QuestionsKey in m && SummaryKey in m
  }

  /** The body of `load_session` after `json.load`: the fields are read in
      the order the constructor call evaluates them, so the first problem
      in that order is the one reported. */
  function DecodeSession(j: Json): (r: Result<Session, LoadError>)
    ensures j.JObject? && TranscriptKey !in j.fields ==> r == Err(MissingKey(TranscriptKey))
    ensures j.JObject? && !HasAllKeys(j.fields) ==> r.Err?
    ensures !j.JObject? ==> r == Err(NotAnObject)
  {
    if !j.JObject? then Err(NotAnObject)
    else
      var m := j.fields;
      if TranscriptKey !in m then Err(MissingKey(TranscriptKey))
      else if !m[TranscriptKey].JString? then Err(WrongType(TranscriptKey))
      else if StartTimeKey !in m then Err(MissingKey(StartTimeKey))
      else if !m[StartTimeKey].JString? then Err(WrongType(StartTimeKey))
      else if ParseIso(m[StartTimeKey].str).None? then Err(BadStartTime(m[StartTimeKey].str))
      else if QuestionsKey !in m then Err(MissingKey(QuestionsKey))
      else if !m[QuestionsKey].JArray? || DecodeExchanges(m[QuestionsKey].items).None?
      then Err(WrongType(QuestionsKey))
      else if SummaryKey !in m then Err(MissingKey(SummaryKey))
      else if !m[SummaryKey].JString? then Err(WrongType(SummaryKey))
      else Ok(Session(m[TranscriptKey].str, ParseIso(m[StartTimeKey].str).value,
                      DecodeExchanges(m[QuestionsKey].items).value, m[SummaryKey].str))
  }

  /** Decoding the record a session was encoded to gives the session back. */
  lemma DecodeEncodeSession(s: Session)
    ensures DecodeSession(JObject(EncodeSession(s))) == Ok(s)
  {
    IsoRoundTrip(s.startTime);
    DecodeEncodeExchanges(s.questions);
  }

  // ---------------------------------------------------------------------
  // The store
  // ---------------------------------------------------------------------

  /** `save_session`: write the record to the session's file, replacing any
      file of that name. */
  function SaveSession(fs: FileSystem, outputDir: Path, s: Session): (r: FileSystem)
    ensures r.Keys == fs.Keys + {SessionFile(outputDir, s.startTime)}
    ensures r[SessionFile(outputDir, s.startTime)] == JObject(EncodeSession(s))
    ensures forall p :: p in fs && p != SessionFile(outputDir, s.startTime) ==> r[p] == fs[p]
  {
    fs[SessionFile(outputDir, s.startTime) := JObject(EncodeSession(s))]
  }

  /** `load_session`. */
  function LoadSession(fs: FileSystem, path: Path): (r: Result<Session, LoadError>)
    ensures path !in fs ==> r == Err(NotFound)
  {
    if path !in fs then Err(NotFound) else DecodeSession(fs[path])
  }

  /** A file `list_sessions` reports: directly inside the sessions
      directory, with a name matching the pattern. */
  predicate IsListed(outputDir: Path, p: Path) {
    var dir := SessionsDir(outputDir);
    |p| == |dir| + 1 && p[..|dir|] == dir && GlobMatch(Pattern, p[|dir|])
  }

  /** `list_sessions`, as a set: the order the directory yields is not
      modelled. */
  function ListSessions(fs: FileSystem, outputDir: Path): (r: set<Path>)
    ensures forall p :: p in r <==> p in fs && IsListed(outputDir, p)
  {
    set p | p in fs.Keys && IsListed(outputDir, p)
  }

  /** Saving then loading the file the session was saved to gives the same
      transcript path, start time, questions and summary. */
  lemma SaveThenLoad(fs: FileSystem, outputDir: Path, s: Session)
    ensures LoadSession(SaveSession(fs, outputDir, s), SessionFile(outputDir, s.startTime)) == Ok(s)
  {
    DecodeEncodeSession(s);
  }

  /** A saved session is listed, and saving adds nothing else to the listing. */
  lemma SaveThenList(fs: FileSystem, outputDir: Path, s: Session)
    ensures ListSessions(SaveSession(fs, outputDir, s), outputDir)
            == ListSessions(fs, outputDir) + {SessionFile(outputDir, s.startTime)}
  {
    var f := SessionFile(outputDir, s.startTime);
    PatternMatchesSessionNames(Stamp(s.startTime));
    assert f[..|SessionsDir(outputDir)|] == SessionsDir(outputDir);
    assert IsListed(outputDir, f);
  }

  /** Two saves within the same second: the later one replaces the earlier. */
  lemma SameSecondOverwrites(fs: FileSystem, outputDir: Path, first: Session, second: Session)
    requires Truncate(first.startTime) == Truncate(second.startTime)
    ensures LoadSession(SaveSession(SaveSession(fs, outputDir, first), outputDir, second),
                        SessionFile(outputDir, first.startTime)) == Ok(second)
  {
    SessionFileIdentifiesSecond(outputDir, first.startTime, second.startTime);
    SaveThenLoad(SaveSession(fs, outputDir, first), outputDir, second);
  }

  /** Saves in different seconds do not disturb each other. */
  lemma DifferentSecondsKeepBoth(fs: FileSystem, outputDir: Path, first: Session, second: Session)
    requires Truncate(first.startTime) != Truncate(second.startTime)
    ensures LoadSession(SaveSession(SaveSession(fs, outputDir, first), outputDir, second),
                        SessionFile(outputDir, first.startTime)) == Ok(first)
  {
    SessionFileIdentifiesSecond(outputDir, first.startTime, second.startTime);
    SaveThenLoad(fs, outputDir, first);
  }
}

=== FILE: summarizer.dfy ===
/** The summarizer: the structured summary the language model returns, the
    fixed text layout it is rendered in, and the error rules around the
    model call. The model itself (prompt, generation, output fixing) is a
    function parameter. */
module Summaries {
  import opened Results
  import opened Text
  import opened FileParser

  /** `SummaryOutput`: a synopsis and three lists. */
  datatype SummaryOutput = SummaryOutput(summary: string, topics: seq<string>,
                                         questions: seq<string>, conclusions: seq<string>)

  /** The fixed lines of the rendered layout. */
  datatype Headings = Headings(title: string, rule: string, topics: string,
                               questions: string, conclusions: string)

  /** `c * n`: the character `c`, `n` times. */
  function Repeat(c: char, n: nat): (r: string)
    ensures |r| == n
    ensures forall i :: 0 <= i < n ==> r[i] == c
  {
    if n == 0 then "" else [c] + Repeat(c, n - 1)
  }

  /** The German headings `summarize` writes, and its rule of fifty `=`. */
  const German: Headings := Headings(
    "Zusammenfassung:",
    Repeat('=', 50),
    "Hauptthemen:",
    "Wichtige Fragen:",
    "Zentrale Erkenntnisse:")

  /** The bullet line of one list element. */
  function Bullet(item: string): string {
    "- " + item
  }

  /** A list rendered as the loop does: one bullet line per element, each
      ended by a newline. */
  function Bullets(items: seq<string>): string {
    if |items| == 0 then "" else Bullet(items[0]) + "\n" + Bullets(items[1..])
  }

  /** The text built from a structured output under the headings `h`:
      title, rule, synopsis and a blank line, then the three sections. */
  function RenderWith(h: Headings, o: SummaryOutput): string {
    h.title + "\n" + h.rule + "\n" + o.summary + "\n\n" + TopicsText(h, o)
  }

  /** From the topics heading to the end of the text. */
  function TopicsText(h: Headings, o: SummaryOutput): string {
    h.topics + "\n" + Bullets(o.topics) + QuestionsText(h, o)
  }

  /** From the newline before the questions heading to the end. */
  function QuestionsText(h: Headings, o: SummaryOutput): string {
    "\n" + h.questions + "\n" + Bullets(o.questions) + ConclusionsText(h, o)
  }

  /** From the newline before the conclusions heading to the end. */
  function ConclusionsText(h: Headings, o: SummaryOutput): string {
    "\n" + h.conclusions + "\n" + Bullets(o.conclusions)
  }

  /** The text `summarize` builds from the model's structured output. */
  function Render(o: SummaryOutput): (r: string)
    ensures r == Join(LinesWith(German, o), "\n")
  {
    RenderIsJoinedLines(German, o);
    RenderWith(German, o)
  }

  // ---------------------------------------------------------------------
  // The layout, line by line
  // ---------------------------------------------------------------------

  function BulletLines(items: seq<string>): (r: seq<string>)
    ensures |r| == |items|
    ensures forall i :: 0 <= i < |r| ==> r[i] == Bullet(items[i])
  {
    if |items| == 0 then [] else [Bullet(items[0])] + BulletLines(items[1..])
  }

  /** The lines from the blank before the conclusions heading to the end. */
  function ConclusionsPart(h: Headings, o: SummaryOutput): seq<string> {
    ["", h.conclusions] + BulletLines(o.conclusions) + [""]
  }

  /** The lines from the blank before the questions heading to the end. */
  function QuestionsPart(h: Headings, o: SummaryOutput): seq<string> {
    ["", h.questions] + BulletLines(o.questions) + ConclusionsPart(h, o)
  }

  /** The lines from the topics heading to the end. */
  function TopicsPart(h: Headings, o: SummaryOutput): seq<string> {
    [h.topics] + BulletLines(o.topics) + QuestionsPart(h, o)
  }

  /** The lines of the rendered text, in order: title, rule, synopsis, a
      blank line, then each heading followed by its bullets, sections
      separated by blank lines, and the empty piece after the final
      newline. */
  function LinesWith(h: Headings, o: SummaryOutput): seq<string> {
    [h.title, h.rule, o.summary, ""] + TopicsPart(h, o)
  }

  lemma JoinCons(head: string, rest: seq<string>, sep: string)
    requires |rest| > 0
    ensures Join([head] + rest, sep) == head + sep + Join(rest, sep)
  {
    assert ([head] + rest)[1..] == rest;
  }

  lemma {:induction false} JoinBullets(head: string, items: seq<string>, rest: seq<string>)
    requires |rest| > 0
    ensures Join([head] + BulletLines(items) + rest, "\n") == head + "\n" + Bullets(items) + Join(rest, "\n")
    decreases |items|
  {
    if |items| == 0 {
      assert [head] + BulletLines(items) + rest == [head] + rest;
      JoinCons(head, rest, "\n");
    } else {
      var tail := [Bullet(items[0])] + BulletLines(items[1..]) + rest;
      assert [head] + BulletLines(items) + rest == [head] + tail;
      JoinCons(head, tail, "\n");
      JoinBullets(Bullet(items[0]), items[1..], rest);
    }
  }

  lemma JoinConclusionsPart(h: Headings, o: SummaryOutput)
    ensures Join(ConclusionsPart(h, o), "\n") == ConclusionsText(h, o)
  {
    var inner := [h.conclusions] + BulletLines(o.conclusions) + [""];
    assert ConclusionsPart(h, o) == [""] + inner;
    JoinCons("", inner, "\n");
    JoinBullets(h.conclusions, o.conclusions, [""]);
  }

  lemma JoinQuestionsPart(h: Headings, o: SummaryOutput)
    ensures Join(QuestionsPart(h, o), "\n")
         == "\n" + h.questions + "\n" + Bullets(o.questions) + Join(ConclusionsPart(h, o), "\n")
  {
    var inner := [h.questions] + BulletLines(o.questions) + ConclusionsPart(h, o);
    assert QuestionsPart(h, o) == [""] + inner;
    JoinCons("", inner, "\n");
    JoinBullets(h.questions, o.questions, ConclusionsPart(h, o));
  }

  lemma JoinHead(h: Headings, o: SummaryOutput)
    ensures Join(LinesWith(h, o), "\n")
         == h.title + "\n" + h.rule + "\n" + o.summary + "\n\n" + Join(TopicsPart(h, o), "\n")
  {
    var rest3 := [""] + TopicsPart(h, o);
    var rest2 := [o.summary] + rest3;
    var rest := [h.rule] + rest2;
    assert LinesWith(h, o) == [h.title] + rest;
    JoinCons(h.title, rest, "\n");
    JoinCons(h.rule, rest2, "\n");
    JoinCons(o.summary, rest3, "\n");
    JoinCons("", TopicsPart(h, o), "\n");
  }

  /** The rendered text is its lines joined by newlines. */
  lemma RenderIsJoinedLines(h: Headings, o: SummaryOutput)
    ensures RenderWith(h, o) == Join(LinesWith(h, o), "\n")
  {
    JoinConclusionsPart(h, o);
    JoinQuestionsPart(h, o);
    assert Join(QuestionsPart(h, o), "\n") == QuestionsText(h, o);
    JoinBullets(h.topics, o.topics, QuestionsPart(h, o));
    assert Join(TopicsPart(h, o), "\n") == TopicsText(h, o);
    JoinHead(h, o);
  }

  predicate NoNewlines(o: SummaryOutput) {
    && '\n' !in o.summary
    && (forall i :: 0 <= i < |o.topics| ==> '\n' !in o.topics[i])
    && (forall i :: 0 <= i < |o.questions| ==> '\n' !in o.questions[i])
    && (forall i :: 0 <= i < |o.conclusions| ==> '\n' !in o.conclusions[i])
  }

  /** Headings that are single lines and that cannot be taken for bullets. */
  predicate GoodHeadings(h: Headings) {
    && '\n' !in h.title && '\n' !in h.rule && '\n' !in h.topics
    && '\n' !in h.questions && '\n' !in h.conclusions
    && !IsBulletLine(h.questions) && !IsBulletLine(h.conclusions)
  }

  lemma GermanRuleOneLine()
    ensures '\n' !in German.rule
  {
    assert forall i :: 0 <= i < |German.rule| ==> German.rule[i] == '=';
  }

  lemma GermanTitlesOneLine()
    ensures '\n' !in German.title && '\n' !in German.topics
  {
  }

  lemma GermanHeadersNotBullets()
    ensures '\n' !in German.questions && !IsBulletLine(German.questions)
    ensures '\n' !in German.conclusions && !IsBulletLine(German.conclusions)
  {
    assert German.questions[0] == 'W';
    assert German.conclusions[0] == 'Z';
  }

  lemma GermanIsGood()
    ensures GoodHeadings(German)
  {
    GermanRuleOneLine();
    GermanTitlesOneLine();
    GermanHeadersNotBullets();
  }

  predicate LinesFree(ls: seq<string>) {
    forall i :: 0 <= i < |ls| ==> '\n' !in ls[i]
  }

  lemma LinesFreeAppend(a: seq<string>, b: seq<string>)
    requires LinesFree(a) && LinesFree(b)
    ensures LinesFree(a + b)
  {
    forall i | 0 <= i < |a + b|
      ensures '\n' !in (a + b)[i]
    {
      if i < |a| { assert (a + b)[i] == a[i]; } else { assert (a + b)[i] == b[i - |a|]; }
    }
  }

  lemma BulletLinesFree(items: seq<string>)
    requires forall i :: 0 <= i < |items| ==> '\n' !in items[i]
    ensures LinesFree(BulletLines(items))
  {
    forall i | 0 <= i < |items|
      ensures '\n' !in BulletLines(items)[i]
    {
      assert BulletLines(items)[i] == "- " + items[i];
    }
  }

  lemma LinesWithFree(h: Headings, o: SummaryOutput)
    requires GoodHeadings(h) && NoNewlines(o)
    ensures LinesFree(LinesWith(h, o))
  {
    BulletLinesFree(o.topics);
    BulletLinesFree(o.questions);
    BulletLinesFree(o.conclusions);
    LinesFreeAppend(["", h.conclusions], BulletLines(o.conclusions));
    LinesFreeAppend(["", h.conclusions] + BulletLines(o.conclusions), [""]);
    LinesFreeAppend(["", h.questions], BulletLines(o.questions));
    LinesFreeAppend(["", h.questions] + BulletLines(o.questions), ConclusionsPart(h, o));
    LinesFreeAppend([h.topics], BulletLines(o.topics));
    LinesFreeAppend([h.topics] + BulletLines(o.topics), QuestionsPart(h, o));
    LinesFreeAppend([h.title, h.rule, o.summary, ""], TopicsPart(h, o));
  }

  /** When no field holds a newline, the rendered text splits into exactly
      the expected lines: the headings in their fixed order, each list's
      bullets in input order under its own heading. */
  lemma RenderedLines(o: SummaryOutput)
    requires NoNewlines(o)
    ensures Split(Render(o), '\n') == LinesWith(German, o)
  {
    GermanIsGood();
    RenderIsJoinedLines(German, o);
    LinesWithFree(German, o);
    SplitJoin(LinesWith(German, o), '\n');
  }

  // ---------------------------------------------------------------------
  // Reading a rendered summary back
  // ---------------------------------------------------------------------

  predicate IsBulletLine(line: string) {
    |line| >= 2 && line[..2] == "- "
  }

  /** The leading bullet lines of `lines`, without their `- `, and what
      follows them. */
  function TakeBullets(lines: seq<string>): (r: (seq<string>, seq<string>))
    ensures |r.1| <= |lines|
  {
    if |lines| > 0 && IsBulletLine(lines[0]) then
      var rest := TakeBullets(lines[1..]);
      ([lines[0][2..]] + rest.0, rest.1)
    else ([], lines)
  }

  lemma {:induction false} TakeBulletLines(items: seq<string>, rest: seq<string>)
    requires |rest| > 0 && !IsBulletLine(rest[0])
    ensures TakeBullets(BulletLines(items) + rest) == (items, rest)
  {
    if |items| == 0 {
      assert BulletLines(items) + rest == rest;
    } else {
      var ls := BulletLines(items) + rest;
      assert ls[0] == Bullet(items[0]);
      assert ls[0][2..] == items[0];
      assert ls[1..] == BulletLines(items[1..]) + rest;
      TakeBulletLines(items[1..], rest);
      assert [items[0]] + items[1..] == items;
    }
  }

  /** The three lists from the lines after the title block: each list's
      bullets, each later heading preceded by a blank line, and the empty
      piece after the final newline. */
  function DecodeLists(h: Headings, lines: seq<string>): Option<(seq<string>, seq<string>, seq<string>)> {
    var (topics, r1) := TakeBullets(lines);
    if |r1| < 2 || r1[0] != "" || r1[1] != h.questions then None
    else
      var (questions, r2) := TakeBullets(r1[2..]);
      if |r2| < 2 || r2[0] != "" || r2[1] != h.conclusions then None
      else
        var (conclusions, r3) := TakeBullets(r2[2..]);
        if r3 != [""] then None
        else Some((topics, questions, conclusions))
  }

  /** Recover the structured summary from lines laid out under the
      headings `h`; `None` if they do not have that layout. */
  function DecodeLines(h: Headings, lines: seq<string>): Option<SummaryOutput> {
    if |lines| < 5 || lines[0] != h.title || lines[1] != h.rule || lines[3] != "" || lines[4] != h.topics
    then None
    else
      match DecodeLists(h, lines[5..])
      case None => None
      case Some((topics, questions, conclusions)) =>
        Some(SummaryOutput(lines[2], topics, questions, conclusions))
  }

  lemma DecodeConclusionsPart(h: Headings, o: SummaryOutput)
    ensures TakeBullets(ConclusionsPart(h, o)[2..]) == (o.conclusions, [""])
  {
    assert ConclusionsPart(h, o)[2..] == BulletLines(o.conclusions) + [""];
    TakeBulletLines(o.conclusions, [""]);
  }

  lemma DecodeQuestionsPart(h: Headings, o: SummaryOutput)
    requires !IsBulletLine(h.conclusions)
    ensures TakeBullets(QuestionsPart(h, o)[2..]) == (o.questions, ConclusionsPart(h, o))
  {
    assert QuestionsPart(h, o)[2..] == BulletLines(o.questions) + ConclusionsPart(h, o);
    TakeBulletLines(o.questions, ConclusionsPart(h, o));
  }

  lemma DecodeTopicsPart(h: Headings, o: SummaryOutput)
    requires GoodHeadings(h)
    ensures DecodeLists(h, TopicsPart(h, o)[1..]) == Some((o.topics, o.questions, o.conclusions))
  {
    assert TopicsPart(h, o)[1..] == BulletLines(o.topics) + QuestionsPart(h, o);
    TakeBulletLines(o.topics, QuestionsPart(h, o));
    DecodeQuestionsPart(h, o);
    DecodeConclusionsPart(h, o);
  }

  lemma DecodeLinesWith(h: Headings, o: SummaryOutput)
    requires GoodHeadings(h)
    ensures DecodeLines(h, LinesWith(h, o)) == Some(o)
  {
    var ls := LinesWith(h, o);
    assert ls[5..] == TopicsPart(h, o)[1..];
    DecodeTopicsPart(h, o);
  }

  /** Recover the structured summary from a rendered text. */
  function Decode(text: string): Option<SummaryOutput> {
    DecodeLines(German, Split(text, '\n'))
  }

  /** Rendering loses nothing: as long as no field holds a newline, the
      synopsis and all three lists can be read back from the text. */
  lemma DecodeRender(o: SummaryOutput)
    requires NoNewlines(o)
    ensures Decode(Render(o)) == Some(o)
  {
    RenderedLines(o);
    GermanIsGood();
    DecodeLinesWith(German, o);
  }

  // ---------------------------------------------------------------------
  // summarize
  // ---------------------------------------------------------------------

  /** The two ways `summarize` fails: the precondition check, raised before
      the model is called and not wrapped, and any failure of the model
      call, wrapped around its cause. */
  datatype SummaryError = EmptyTranscript | Failed(cause: string)

  /** `TranscriptSummarizer.summarize`, with the model chain (prompt,
      generation, output parsing and fixing) as the function `chain` from
      the transcript's full text to a structured summary or an error
      message. */
  function Summarize(t: Transcript, chain: string -> Result<SummaryOutput, string>): (r: Result<string, SummaryError>)
    ensures |t.statements| == 0 <==> r == Err(EmptyTranscript)
    ensures |t.statements| > 0 && chain(FullText(t)).Err? ==>
              r == Err(Failed(chain(FullText(t)).error))
    ensures r.Ok? ==> chain(FullText(t)).Ok? && r.value == Render(chain(FullText(t)).value)
    ensures |t.statements| > 0 && chain(FullText(t)).Ok? ==> r == Ok(Render(chain(FullText(t)).value))
  {
    if |t.statements| == 0 then Err(EmptyTranscript)
    else
      match chain(FullText(t))
      case Err(cause) => Err(Failed(cause))
      case Ok(o) => Ok(Render(o))
  }
}

=== FILE: text.dfy ===
/** String helpers shared by the parser, the renderer and the query engine:
    Python's `str.strip()`, `sep.join(xs)` and `s.split(c)`. */
module Text {

  /** Python's `str.isspace` on the ASCII range: space, \t, \n, \v, \f, \r
      and the four separators \x1c..\x1f. */
  predicate IsSpace(c: char) {
    c == ' ' || c == '\t' || c == '\n' || c == '\r' || c == '\U{000B}' || c == '\U{000C}'
    || ('\U{001C}' <= c <= '\U{001F}')
  }

  predicate AllSpace(s: string) {
    forall i :: 0 <= i < |s| ==> IsSpace(s[i])
  }

  /** No whitespace at either end. */
  predicate IsStripped(s: string) {
    |s| == 0 || (!IsSpace(s[0]) && !IsSpace(s[|s| - 1]))
  }

  /** The first index at or after `i` that does not hold whitespace. */
  function SkipSpace(s: string, i: nat): (j: nat)
    requires i <= |s|
    ensures i <= j <= |s|
    ensures forall k :: i <= k < j ==> IsSpace(s[k])
    ensures j == |s| || !IsSpace(s[j])
    decreases |s| - i
  {
    if i < |s| && IsSpace(s[i]) then SkipSpace(s, i + 1) else i
  }

  /** The smallest `k >= lo` such that `s[k..j]` is all whitespace. */
  function BackSpace(s: string, j: nat, lo: nat): (k: nat)
    requires lo <= j <= |s|
    ensures lo <= k <= j
    ensures forall m :: k <= m < j ==> IsSpace(s[m])
    ensures k == lo || !IsSpace(s[k - 1])
    decreases j
  {
    if lo < j && IsSpace(s[j - 1]) then BackSpace(s, j - 1, lo) else j
  }

  /** `s.strip()`: `s` without its leading and trailing whitespace. */
  function Strip(s: string): (r: string)
    ensures IsStripped(r)
    ensures |r| <= |s|
    ensures |r| == 0 <==> AllSpace(s)
  {
    var lo := SkipSpace(s, 0);
    var hi := BackSpace(s, |s|, lo);
    assert |s[lo..hi]| > 0 ==> s[lo..hi][0] == s[lo];
    s[lo..hi]
  }

  lemma {:induction false} SkipSpacePadded(s: string, i: nat, n: nat)
    requires i <= n <= |s|
    requires forall k :: i <= k < n ==> IsSpace(s[k])
    requires n == |s| || !IsSpace(s[n])
    ensures SkipSpace(s, i) == n
    decreases n - i
  {
    if i < n {
      SkipSpacePadded(s, i + 1, n);
    }
  }

  lemma {:induction false} BackSpacePadded(s: string, j: nat, lo: nat, n: nat)
    requires lo <= n <= j <= |s|
    requires forall m :: n <= m < j ==> IsSpace(s[m])
    requires n == lo || !IsSpace(s[n - 1])
    ensures BackSpace(s, j, lo) == n
    decreases j
  {
    if n < j {
      BackSpacePadded(s, j - 1, lo, n);
    }
  }

  /** The number of characters in all of `xs` together. */
  function TotalLength(xs: seq<string>): nat {
    if |xs| == 0 then 0 else |xs[0]| + TotalLength(xs[1..])
  }

  /** `sep.join(xs)`: the pieces in order with `sep` between neighbours. */
  function Join(xs: seq<string>, sep: string): string {
    if |xs| == 0 then ""
    else if |xs| == 1 then xs[0]
    else xs[0] + sep + Join(xs[1..], sep)
  }

  /** A join of no pieces is empty; otherwise it holds every character of
      the pieces plus one separator between each two neighbours, and starts
      with the first piece. */
  lemma {:induction false} JoinShape(xs: seq<string>, sep: string)
    ensures |xs| == 0 ==> Join(xs, sep) == ""
    ensures |xs| > 0 ==> |Join(xs, sep)| == TotalLength(xs) + (|xs| - 1) * |sep|
    ensures |xs| > 0 ==> Join(xs, sep)[..|xs[0]|] == xs[0]
    decreases |xs|
  {
    if |xs| > 1 {
      JoinShape(xs[1..], sep);
      assert (|xs| - 1) * |sep| == |sep| + (|xs| - 2) * |sep|;
    }
  }

  /** `s.split(c)` for a single-character separator: the maximal pieces
      between occurrences of `c`, empty pieces included. */
  function Split(s: string, c: char): (r: seq<string>)
    ensures |r| >= 1
    ensures forall i :: 0 <= i < |r| ==> c !in r[i]
  {
    if |s| == 0 then [""]
    else
      var rest := Split(s[1..], c);
      if s[0] == c then [""] + rest
      else [[s[0]] + rest[0]] + rest[1..]
  }

  /** Strip is characterised by its input's shape: whatever whitespace
      surrounds a stripped core, the core is what comes back. */
  lemma StripPadded(a: string, m: string, b: string)
    requires AllSpace(a) && AllSpace(b) && IsStripped(m)
    ensures Strip(a + m + b) == m
  {
    var s := a + m + b;
    if |m| == 0 {
      assert AllSpace(s) by {
        forall k | 0 <= k < |s|
          ensures IsSpace(s[k])
        {
          if k < |a| { assert s[k] == a[k]; } else { assert s[k] == b[k - |a|]; }
        }
      }
    } else {
      assert forall k :: 0 <= k < |a| ==> s[k] == a[k];
      assert s[|a|] == m[0];
      SkipSpacePadded(s, 0, |a|);
      assert forall k :: |a| + |m| <= k < |s| ==> s[k] == b[k - |a| - |m|];
      assert s[|a| + |m| - 1] == m[|m| - 1];
      BackSpacePadded(s, |s|, |a|, |a| + |m|);
      assert s[|a|..|a| + |m|] == m;
    }
  }

  /** Stripping twice is stripping once. */
  lemma StripIdempotent(s: string)
    ensures Strip(Strip(s)) == Strip(s)
  {
    var m := Strip(s);
    assert "" + m + "" == m;
    StripPadded("", m, "");
  }

  /** A stripped string is its own strip. */
  lemma StrippedIsFixed(s: string)
    requires IsStripped(s)
    ensures Strip(s) == s
  {
    assert "" + s + "" == s;
    StripPadded("", s, "");
  }

  lemma {:induction false} JoinAppend(a: seq<string>, b: seq<string>, sep: string)
    requires |a| > 0 && |b| > 0
    ensures Join(a + b, sep) == Join(a, sep) + sep + Join(b, sep)
  {
    if |a| == 1 {
      assert (a + b)[1..] == b;
    } else {
      assert (a + b)[1..] == a[1..] + b;
      JoinAppend(a[1..], b, sep);
    }
  }

  /** Joining non-empty pieces keeps the first character of the first piece
      and the last character of the last one. */
  lemma {:induction false} JoinEnds(xs: seq<string>, sep: string)
    requires |xs| > 0
    requires forall i :: 0 <= i < |xs| ==> |xs[i]| > 0
    ensures |Join(xs, sep)| > 0
    ensures Join(xs, sep)[0] == xs[0][0]
    ensures Join(xs, sep)[|Join(xs, sep)| - 1] == xs[|xs| - 1][|xs[|xs| - 1]| - 1]
  {
    if |xs| > 1 {
      JoinEnds(xs[1..], sep);
    }
  }

  lemma {:induction false} SplitNoSeparator(x: string, c: char)
    requires c !in x
    ensures Split(x, c) == [x]
  {
    if |x| > 0 {
      assert x[0] in x;
      assert forall i :: 0 <= i < |x[1..]| ==> x[1..][i] == x[i + 1];
      SplitNoSeparator(x[1..], c);
      assert [x[0]] + x[1..] == x;
    }
  }

  lemma {:induction false} SplitAtSeparator(x: string, c: char, y: string)
    requires c !in x
    ensures Split(x + [c] + y, c) == [x] + Split(y, c)
  {
    if |x| == 0 {
      assert (x + [c] + y)[1..] == y;
    } else {
      assert (x + [c] + y)[1..] == x[1..] + [c] + y;
      SplitAtSeparator(x[1..], c, y);
      assert [x[0]] + x[1..] == x;
    }
  }

  /** Splitting on a separator undoes joining with it, provided no piece
      contains the separator. */
  lemma {:induction false} SplitJoin(xs: seq<string>, c: char)
    requires |xs| > 0
    requires forall i :: 0 <= i < |xs| ==> c !in xs[i]
    ensures Split(Join(xs, [c]), c) == xs
  {
    if |xs| == 1 {
      SplitNoSeparator(xs[0], c);
    } else {
      SplitJoin(xs[1..], c);
      SplitAtSeparator(xs[0], c, Join(xs[1..], [c]));
      assert [xs[0]] + xs[1..] == xs;
    }
  }

  /** Joining the pieces of a split with the separator gives back the string. */
  lemma {:induction false} JoinSplit(s: string, c: char)
    ensures Join(Split(s, c), [c]) == s
  {
    if |s| > 0 {
      JoinSplit(s[1..], c);
      var rest := Split(s[1..], c);
      if s[0] == c {
        assert Join([""] + rest, [c]) == "" + [c] + Join(rest, [c]);
      } else {
        var first := [s[0]] + rest[0];
        if |rest| > 1 {
          assert ([first] + rest[1..])[1..] == rest[1..];
          assert Join(rest, [c]) == rest[0] + [c] + Join(rest[1..], [c]);
        }
        assert s == [s[0]] + s[1..];
      }
    }
  }
}
